=== FILE: README.md ===
# Guard-X surveillance console: a Dafny model of its decision logic

Guard-X is an operator console for a surveillance product. A React frontend shows uploaded-image
detections, a live camera stream with threat statistics, a drone fleet dashboard and an analytics
page. A FastAPI backend runs the detector and guards its endpoints with a small army-user directory.
This project models the parts of both that make decisions, as pure Dafny functions over immutable
data, and proves what they promise:

- **Live stream session** (`CameraSession`). The camera view is an event-driven state machine. The
  WebSocket callbacks, the reconnect timer, the clock, the geolocation watch and the start/stop
  buttons become explicit `Event`s. The persisted history is a `seq`, and the commands sent are
  collected in `sent`. Trace lemmas cover any run of events: frame and detection totals,
  the history bound, and the FPS counter's invariant.
- **Live history** (`LiveHistory`). This is the bounded append to local storage: the newest 1000
  records are kept and the oldest are evicted first.
- **Upload history** (`UploadHistory`). This is the shell's `handleNewDetection`, the only writer
  of the in-memory history the analytics page reads.
- **Analytics** (`Analytics`, `StableSort`). These are pure functions from the two histories to
  the page's figures:
  - the time window;
  - the source selection, where the merged view uses a stable sort by timestamp;
  - the scalar counts;
  - a dense 24-bucket hour-of-day table;
  - the severity histogram;
  - the ten most recent entries.
- **Detection client** (`DetectionApi`). It normalises either response shape, parses the
  `"WxH"` dimensions string (proved to invert the backend's formatter), maps errors to messages, and
  turns a failed health check into an "offline" report.
- **Backend** (`Backend`, `Auth`). This covers login, the threat-level ladder, the mission status
  and the mirrored response fields of the detection endpoint, plus these authorisation decisions:
  - the credential lookup;
  - the token-subject lookup;
  - the admin gate;
  - the linear clearance hierarchy.
- **Drone fleet** (`DroneFleet`). Mission activation and the swarm poll merge are map updates that
  touch only existing keys and only the named fields. The module also has the battery colour and
  the active count.
- **Registration** (`Register`). The ordered password checks run before the external `register`
  call.

Time is integer milliseconds throughout. The hour of day is `((t + offset) / 3600000) % 24` for a
fixed zone offset. Token decoding, image decoding and the detector are oracles: they are parameters
that either succeed with a value or fail with a message.

Behaviour of the code that the model keeps deliberately:
- The hourly table buckets every filtered item by its hour of day, over the whole selected range
  (up to a week). It is not limited to a trailing 24-hour window.
- `camera_stopped` clears the frame and the streaming flag but keeps the last detection.
  `camera_started` overwrites the session start time, while a frame only fills it when it is absent.
- A live record's location is always null. The message handler is the closure built at mount, and
  every reconnect reuses it, so it reads the first render's location (see Findings).
- Every close, including the one issued when the view unmounts, schedules a reconnect timer. When
  the timer fires and finds the socket CLOSED, it opens a new one (see Findings).
- The model's start and stop handlers check only that the socket is OPEN, as the handlers do.
  The page adds two gates the model leaves to presentation. The start button is shown only while
  not streaming and is disabled unless the status is 'connected'. The stop button is shown only
  while streaming. So the real page never sends a start while streaming, although a `PressStart`
  event in the model can.
- Storage write failures are not caught by the source. The model has no failure path for them.
- The FPS counter publishes once at least 1000 ms have passed since the last publish. The published
  value is the number of frames counted since then, including the current one.
- In the recent-activity list, the confidence shown is read from `detections.confidences` or
  `confidence_scores`. A normalised upload result carries neither, so uploads always show an empty
  list. The model keeps this.
- The backend's threat ladder (`Backend.ThreatLevel`: more than 3 is CRITICAL) and the analytics
  severity buckets (`Analytics.SeverityOf`: 3-5 is high, 6 and up is critical) are separate
  functions. `Analytics.LaddersDiffer` shows where they disagree.

## Model

| member | source | states |
|---|---|---|
| `CameraSession.Mount` | Frontend/src/components/CameraDetection.jsx:5-24 | A fresh view starts disconnected and not streaming, with zero statistics and the stored history, and has opened exactly one socket. It has no frame, detection or fix yet, is not unmounted, has a zero frame count, and its FPS and clock start at the mount time. It has sent nothing and scheduled no retry. |
| `CameraSession.MountConsistent` | Frontend/src/components/CameraDetection.jsx:5-24 | A freshly mounted view satisfies the session invariant whenever the stored history is within capacity. |
| `CameraSession.UpdateStats` | Frontend/src/components/CameraDetection.jsx:80-88 | A frame adds exactly 1 to the frame total and its count to the detection total, and sets the current threats to that count. It keeps an existing session start time and fills it only when absent. |
| `LiveHistory.Append` | Frontend/src/components/CameraDetection.jsx:99-107 | The new length is min(old + 1, 1000). The new record is last, and the records kept before it are the newest of the old store in their old order. |
| `LiveHistory.AppendToFullEvictsOldest` | Frontend/src/components/CameraDetection.jsx:103-105 | Appending to a full store drops exactly the oldest record. |
| `LiveHistory.AppendAllKeepsNewest` | Frontend/src/components/CameraDetection.jsx:99-107 | After any run of appends, the store is exactly the newest 1000 of everything appended, in insertion order. |
| `CameraSession.UpdateFps` | Frontend/src/components/CameraDetection.jsx:111-121 | Every frame is counted. At least 1000 ms after the last publish, the count including this frame is published as fps and the counter restarts at 0. Otherwise fps is unchanged. No other part of the session changes. |
| `CameraSession.PressStartCamera` | Frontend/src/components/CameraDetection.jsx:124-132 | A start command for camera 0, carrying the fix held now, is sent only on an OPEN socket. Otherwise nothing is sent, and nothing but the outbox ever changes. |
| `CameraSession.PressStopCamera` | Frontend/src/components/CameraDetection.jsx:135-141 | A stop command is sent only on an OPEN socket, and nothing else changes. |
| `CameraSession.OnMessage` | Frontend/src/components/CameraDetection.jsx:155-184 | `camera_started` sets streaming and overwrites the start time, and nothing else changes. `camera_stopped` clears streaming and the frame but keeps the detection. A frame sets the frame and detection, appends one record, moves the stats as `updateStats` does and the rate counter as `updateFPS` does, and changes nothing else. `camera_error` sets 'error' and changes nothing else. An unknown type changes nothing. |
| `CameraSession.OnClose` | Frontend/src/components/CameraDetection.jsx:186-198 | Close leaves the view disconnected and not streaming. It schedules exactly one more retry, due 3000 ms after now. Nothing else changes: fix, frame, detection, outbox, clock and rate counters are kept. |
| `CameraSession.OnRetry` | Frontend/src/components/CameraDetection.jsx:192-197 | A due timer is consumed. It opens a new socket only if the current one is CLOSED. Otherwise, or when no timer is due, no socket is opened. Nothing but the timers, the socket and the connect count ever changes. |
| `CameraSession.OnUnmount` | Frontend/src/components/CameraDetection.jsx:210-214 | Cleanup closes a connecting or open socket and keeps the pending timers. Nothing else changes apart from the teardown mark. |
| `CameraSession.Step` | Frontend/src/components/CameraDetection.jsx:144-204 | `onopen` makes the socket OPEN and the status 'connected'. `onerror` sets 'error'. A geolocation fix replaces the held fix, and a tick moves the clock. Each of these changes nothing else, and no event but a frame touches the history or the frame total. |
| `CameraSession.StepHistory` | Frontend/src/components/CameraDetection.jsx:172-177 | Only a detection frame touches the history, with one bounded append of a record stamped with the current clock and no location. |
| `CameraSession.RunNeverRecordsFix` | Frontend/src/components/CameraDetection.jsx:91-97 | As written, no run of events ever stores a location in the live history, whatever fixes arrive. |
| `CameraSession.FixDroppedAsWritten` | Frontend/src/components/CameraDetection.jsx:91-97 | As written, a fix received before the first frame is not stored with it. |
| `CameraSession.StepWithCurrentFix` | Frontend/src/components/CameraDetection.jsx:91-97 | The corrected step. A frame's record carries the fix held when it arrives. Apart from the history, the step is the source's. |
| `CameraSession.FixRecordedWhenCorrected` | Frontend/src/components/CameraDetection.jsx:91-97 | With the corrected step, a fix received before a frame is stored with it. |
| `CameraSession.CurrentFixAgreesElsewhere` | Frontend/src/components/CameraDetection.jsx:144-204 | Over any run, the corrected step and the source agree on everything but the history. |
| `CameraSession.RunCountsFrames` | Frontend/src/components/CameraDetection.jsx:81-88 | Over any event run, the frame total grows by the number of frames received and the detection total by the sum of their counts. |
| `CameraSession.RunHistoryIsNewest` | Frontend/src/components/CameraDetection.jsx:91-107 | Over any event run, the stored history is the newest 1000 of the old history plus the records of every frame since, in order. |
| `CameraSession.StepConsistent` | Frontend/src/components/CameraDetection.jsx:111-121 | Each event keeps the history within capacity and keeps published fps plus pending count within the frames received. |
| `CameraSession.RunConsistent` | Frontend/src/components/CameraDetection.jsx:99-121 | The same invariant holds after any run of events. |
| `CameraSession.ThreatBadge` | Frontend/src/components/CameraDetection.jsx:461-462 | The badge is ALERT iff the count is positive, and SECURE iff it is zero. |
| `CameraSession.ThreeFramesScenario` | Frontend/src/components/CameraDetection.jsx:172-177 | Three frames with 0, 2 and 5 targets inside the first second give 3 frames, 7 detections, 5 current threats and fps still 0. |
| `CameraSession.StartStopScenario` | Frontend/src/components/CameraDetection.jsx:124-170 | Open, start, ack, frame, stop, ack sends exactly start then stop. It ends not streaming, with no frame and the last detection kept. |
| `CameraSession.CommandBeforeOpenDropped` | Frontend/src/components/CameraDetection.jsx:124-132 | A start pressed before the socket opens is dropped, not queued. |
| `CameraSession.TeardownReconnectsAsWritten` | Frontend/src/components/CameraDetection.jsx:186-214 | As written, unmount, close and a timer 3000 ms later open a second socket. |
| `CameraSession.StepTeardownAware` | Frontend/src/components/CameraDetection.jsx:186-198 | The corrected step. After unmount it never opens a socket; otherwise it behaves exactly like the source. |
| `CameraSession.TeardownNeverReconnects` | Frontend/src/components/CameraDetection.jsx:210-214 | With the corrected step, no run of events after teardown opens another socket. |
| `CameraSession.TeardownAwareAgreesBeforeUnmount` | Frontend/src/components/CameraDetection.jsx:206-215 | The corrected step gives the same state as the source on every run without an unmount. |
| `Analytics.RangeHours` | Frontend/src/components/Analytics.jsx:24 | '1h', '6h' and '24h' map to 1, 6 and 24 (each iff), and any other value maps to 168. |
| `Analytics.FilterByTimeRange` | Frontend/src/components/Analytics.jsx:17-20 | An entry is kept iff it has a timestamp strictly after now minus the range. A missing timestamp is never kept, and the result is no longer than the input. |
| `Analytics.FilterAppend` | Frontend/src/components/Analytics.jsx:17-20 | The filter distributes over concatenation, so the result is an order-preserving subsequence. |
| `Analytics.FutureEntriesKept` | Frontend/src/components/Analytics.jsx:18-19 | There is no upper bound: entries stamped at or after now are always kept. |
| `Analytics.TagAll` | Frontend/src/components/Analytics.jsx:30-31 | Each kept entry is stamped with its source, one for one, in order. |
| `Analytics.GetFilteredData` | Frontend/src/components/Analytics.jsx:23-41 | 'live' returns only live items and 'upload' only upload items. Any other value returns the stable time-sorted merge of uploads then lives. All of them are in the window. |
| `Analytics.MergeByTime` | Frontend/src/components/Analytics.jsx:38-39 | The merge is ascending by timestamp and a permutation of uploads ++ lives. For every timestamp value it lists uploads before lives, each in original order. |
| `StableSort.Sort` | Frontend/src/components/Analytics.jsx:39 | The sort is ascending by key and a permutation of its input. Elements with equal keys keep their input order. |
| `Analytics.ItemCount` | Frontend/src/components/Analytics.jsx:47 | The count is `detections.count` when positive, else the number of boxes, else 0. |
| `Analytics.ItemCountBySource` | Frontend/src/components/Analytics.jsx:105 | A live record counts its target count, an upload result its boxes, and an error object 0. |
| `Analytics.TagsPartition` | Frontend/src/components/Analytics.jsx:49-50 | Live scans plus upload scans equal all scans. |
| `Analytics.ComputeStats` | Frontend/src/components/Analytics.jsx:46-54 | totalScans is the item count, live plus upload scans equal it, and totalDetections is the sum of the per-item counts. locationsTracked is the number of items that carry a location. |
| `Analytics.TaggedCounts` | Frontend/src/components/Analytics.jsx:30-37 | A single-source selection counts all its items as that source. |
| `Analytics.HourOf` | Frontend/src/components/Analytics.jsx:77 | The hour of day is always in 0..23. |
| `Analytics.EmptyTable` | Frontend/src/components/Analytics.jsx:62-73 | The initial table has 24 buckets. |
| `Analytics.HourlyData` | Frontend/src/components/Analytics.jsx:57-92 | There are exactly 24 buckets keyed 0..23. Each bucket's total, live count, upload count and detections are those of exactly the items in its hour of day. Totals sum to the item count, and detections sum to the total detection count. |
| `Analytics.SeverityOf` | Frontend/src/components/Analytics.jsx:104-109 | The buckets are 0 low, 1-2 medium, 3-5 high and 6 and up critical, each as an iff. |
| `Analytics.LaddersDiffer` | Frontend/src/components/Analytics.jsx:106-109 | The analytics severity and the backend threat level disagree at 2 and 4 targets. |
| `Analytics.ThreatLevelData` | Frontend/src/components/Analytics.jsx:101-118 | Each bucket counts the items of its severity, and the four buckets sum to the item count. |
| `Analytics.RecentActivity` | Frontend/src/components/Analytics.jsx:121-131 | The list holds min(10, n) entries. Entry i is the (i+1)-th newest item, so the last ten are shown newest first. |
| `Analytics.RecentNewestFirst` | Frontend/src/components/Analytics.jsx:121-123 | Over a time-sorted selection, recent timestamps are non-increasing. |
| `Analytics.Summarise` | Frontend/src/components/Analytics.jsx:43-131 | All page figures agree: scans, hourly totals and detections, histogram and recent length. Each figure is its own component's result for the items: statistics, hourly buckets, threat histogram and recent activity. |
| `Analytics.ComputeView` | Frontend/src/components/Analytics.jsx:22-54 | The page's items are exactly the time-range and data-type selection of the two histories. The whole page is coherent and in-window. The live view has no upload scans, and the upload view has no live scans. |
| `Analytics.NoLocationsTracked` | Frontend/src/components/Analytics.jsx:53 | Uploads carry no location. So when the stored live records carry none, as `CameraSession.RunNeverRecordsFix` shows the camera view always leaves them, "locations tracked" is 0 in every view. |
| `Analytics.NewUploadIsCounted` | Frontend/src/App.jsx:122-124 | The history the shell records is the one the page reads: an in-window upload adds exactly one scan to the upload view. |
| `UploadHistory.HandleNewDetection` | Frontend/src/App.jsx:25-30 | The shown result is always replaced. A present result without an error grows the history by one at the end, and a null or error result leaves it unchanged. |
| `UploadHistory.HistoryIsRecordableResults` | Frontend/src/App.jsx:25-30 | Over any run of results, the history is the old history followed by exactly the recordable results in order. Nothing is removed or reordered. |
| `UploadHistory.UploadOutcome` | Frontend/src/components/UploadForm.jsx:16-21 | The upload form passes a normalised result when delivered, and otherwise an error object with its fixed message. |
| `UploadHistory.UploadRecordedIffDelivered` | Frontend/src/components/UploadForm.jsx:16-21 | An upload grows the history iff the request was delivered. |
| `Text.Split` | Frontend/src/apis/detectionApi.js:29-30 | `split` yields at least one piece and no piece contains the separator. Joining the pieces gives back the input. |
| `Text.ParseInt` | Frontend/src/apis/detectionApi.js:29-30 | `parseInt` is NaN exactly when no digit follows the optional sign. |
| `Text.ParseIntOfNat` | Backend/app.py:146 | `parseInt(str(n)) == n` for every natural. |
| `Backend.FormatDimensions` | Backend/app.py:146 | The dimensions string splits on 'x' into exactly the width and height digits. |
| `DetectionApi.ParseDimensions` | Frontend/src/apis/detectionApi.js:28-31 | A string without 'x' has a NaN height. |
| `DetectionApi.DimensionsRoundTrip` | Frontend/src/apis/detectionApi.js:28-31 | Parsing inverts the backend's `WxH` formatter for every pair of naturals. |
| `DetectionApi.SizeFromMetadata` | Frontend/src/apis/detectionApi.js:28-31 | The size is null unless the dimensions string is present and non-empty, and otherwise it is the parsed pair. |
| `DetectionApi.Normalize` | Frontend/src/apis/detectionApi.js:17-50 | With `detection`: count = targets_identified or 0, boxes = bounding_boxes or [], confidences = confidence_scores or []. Fallback: success is always true, and confidences prefer confidence_scores, then confidences, then []. |
| `DetectionApi.ErrorMessage` | Frontend/src/apis/detectionApi.js:55-63 | ECONNABORTED gives the timeout message. Otherwise the message is the non-empty detail, then the non-empty message, then the default. |
| `DetectionApi.DetectHuman` | Frontend/src/apis/detectionApi.js:5-64 | A delivered body is normalised. Any failure becomes a non-empty error message. |
| `DetectionApi.DetectionReachesClient` | Frontend/src/apis/detectionApi.js:21-37 | End to end, the client sees the detector's count, boxes and confidences, the backend's threat level, and the image size. |
| `DetectionApi.RejectedUploadMessage` | Frontend/src/apis/detectionApi.js:59-63 | `detectHuman` rejects a non-image upload with the backend's 500 "SYSTEM FAILURE" detail as its message. |
| `UploadHistory.RejectedUploadShownAsFailure` | Frontend/src/components/UploadForm.jsx:16-21 | The form discards that message. The operator sees the fixed connection-failed text, and the history is unchanged. |
| `DetectionApi.CheckHealth` | Frontend/src/apis/detectionApi.js:67-75 | The health check never fails. An unreachable server gives status 'offline' with the error message, and a reachable one gives the server's body. |
| `Backend.MilitaryLogin` | Backend/app.py:49-75 | Failed authentication gives 401. On success, the token subject and reported username are the submitted username, and the clearance is the matching account's. |
| `Backend.ThreatLevel` | Backend/app.py:123-125 | More than 3 is CRITICAL, 2-3 HIGH, 1 MEDIUM and 0 LOW, each as an iff. |
| `Backend.ThreatLevelMonotone` | Backend/app.py:123-125 | More targets never lower the threat level. |
| `Backend.MissionStatus` | Backend/app.py:150 | The status is MISSION_COMPLETE iff the count is 0, and THREATS_DETECTED otherwise. |
| `Backend.MilitaryThreatDetection` | Backend/app.py:98-169 | A non-image content type is rejected before decoding, but reaches the caller as 500. Success iff the type is an image and decoding and detection succeed. Both shapes then mirror the count, the confidences, the boxes and the image size. |
| `Backend.DetectEndpoint` | Backend/app.py:91-96 | An unknown token subject is 401. A known user below SECRET, or with a level outside the hierarchy, is 403. A SECRET or TOP_SECRET user gets exactly the detection handler's answer. |
| `Auth.VerifyPassword` | Backend/auth.py:54-56 | A password is accepted iff it has the stored length and agrees with it character for character. There is no hashing, trimming or case folding. |
| `Auth.Authenticate` | Backend/auth.py:69-85 | A record is returned iff some account matches both username and plain-text password. It copies the first such account's fields. |
| `Auth.FindUser` | Backend/auth.py:103-118 | This finds the first account with the given username, or none iff no account has it. |
| `Auth.GetCurrentUser` | Backend/auth.py:87-118 | The user is returned iff the decoded subject is present and names a known user. The user returned is the directory's entry for that username, role and clearance included. Otherwise the result is 401. |
| `Auth.RequireAdminAccess` | Backend/auth.py:120-127 | The gate passes iff role is ADMIN, returning the same user. Otherwise it is 403. |
| `Auth.Rank` | Backend/auth.py:133-142 | This is the position of a valid level in PUBLIC < CONFIDENTIAL < SECRET < TOP_SECRET. |
| `Auth.RequireClearanceLevel` | Backend/auth.py:129-150 | A level outside the hierarchy on either side gives 403. Otherwise the user passes iff their rank is at least the required rank. |
| `Auth.ClearanceDownwardClosed` | Backend/auth.py:141-149 | Passing a level implies passing every lower level. |
| `Auth.ClearanceTopAndReflexive` | Backend/auth.py:141-149 | TOP_SECRET passes every level, and every level passes itself. |
| `Auth.DefaultDirectoryRoles` | Backend/auth.py:22-41 | With the default directory, both default logins succeed. The operator is not admin and holds SECRET but not TOP_SECRET. |
| `DroneFleet.Activated` | Frontend/src/components/DroneFleet.jsx:38-44 | Activation sets status 'active' and keeps every other field of an existing entry. |
| `DroneFleet.HandleMissionSubmit` | Frontend/src/components/DroneFleet.jsx:30-52 | An empty id or area changes no drone and keeps the form. A valid submit activates only the chosen drone, leaves every other drone as it was, and resets the form. |
| `DroneFleet.MergeSwarm` | Frontend/src/components/DroneFleet.jsx:60-71 | The key set is unchanged and unknown ids are ignored. An updated drone changes only detection and confidence. |
| `DroneFleet.FetchSwarmDetections` | Frontend/src/components/DroneFleet.jsx:55-76 | A failed poll leaves the fleet unchanged, and no poll changes the key set. |
| `DroneFleet.BatteryColor` | Frontend/src/components/DroneFleet.jsx:92-96 | Above 50 is emerald, 21-50 is yellow and 20 or less is red, each as an iff. |
| `DroneFleet.ActiveCount` | Frontend/src/components/DroneFleet.jsx:98 | The active count never exceeds the fleet size. |
| `DroneFleet.MergeKeepsActiveCount` | Frontend/src/components/DroneFleet.jsx:60-71 | A swarm poll never changes the active count. |
| `DroneFleet.SubmitActiveCount` | Frontend/src/components/DroneFleet.jsx:38-44 | Activating an inactive fleet drone raises the active count by one. An already active drone leaves it unchanged. |
| `Register.Validate` | Frontend/src/components/Register.jsx:25-37 | A mismatch gives "Passwords do not match" whatever the length. Matching passwords under 6 characters give the length error. There is no error iff both checks pass. |
| `Register.HandleSubmit` | Frontend/src/components/Register.jsx:20-56 | `register` is called iff both checks pass, without the confirmation. Failure sets the error to the reply's and success sets the success flag. The switch to login is scheduled only after a successful call. Loading is false on every path. |
| `Register.MismatchFirst` | Frontend/src/components/Register.jsx:26-37 | The mismatch check takes precedence over the length check, and nothing is sent. |

## Left out

- The WebSocket transport and JSON parsing of messages are left out. So are real timers and the
  browser clock, which become events. Geolocation permission errors are left out too: they only
  change a UI message.
- Canvas decoding and drawing of the base64 frame are left out. A frame is an opaque string.
- `CameraSession.UpdateStats`: `lastUpdate` is kept as the clock value, not the locale time string.
  `sessionStartTime` is milliseconds, not an ISO string.
- Local-storage read or write failures (unparseable JSON, quota exceeded) are not modelled. The
  source does not catch them either.
- Stopping the geolocation watch at unmount is not modelled. Fixes are only ever events.
- Float averages are not modelled: `avgDetectionsPerScan` with `toFixed(1)`, average-confidence
  percentages, and `avgBattery` with `Math.round`.
- Date parsing is left out. Timestamps are parsed milliseconds, and a missing one is `None`, which
  the window filter drops as an invalid date. Hour of day uses a fixed zone offset, so there is no
  daylight-saving change.
- `Text.ParseInt`: leading whitespace and the `0x` prefix are not handled. A piece of `split('x')`
  never contains an `x`, and backend dimension strings carry no whitespace.
- JWT encoding, signing, expiry and `login_time` are left out. Token decoding is an oracle giving the
  optional subject, and a login's token is reduced to its subject.
- Image decoding (PIL), RGB conversion and the detector (`model_wrapper.py`, `yolo_model.py`) are
  oracles returning a value or an error text.
- The other backend endpoints are left out: `/api/auth/me`, admin system status, camera test and
  health. The camera WebSocket server `camera_detection.py` is not part of this model.
- `getModelsInfo` in the detection client is left out. It uses the same catch-and-default pattern
  as `checkHealth`.
- `DroneFleet.Drone` omits latitude, longitude and altitude, which only the map uses. The status
  colour and the map projection are presentation.
- `Register.HandleSubmit`: a `register` call that throws is not modelled; in the source it would
  leave `loading` true. Password length counts characters, not UTF-16 code units.
- Rendering, routing and the purely presentational components are left out.

## Findings

| source | as written | input that shows it | evidently intended | confidence | as-written member | corrected member |
|---|---|---|---|---|---|---|
| Frontend/src/components/CameraDetection.jsx:186-214 | The unmount cleanup closes the socket through the same `onclose` handler as a lost connection. That handler schedules a retry, and the retry reconnects because the socket is CLOSED. | Mount, open, unmount, close, then the 3000 ms timer fires: a second socket is opened after the view is gone. | Teardown never triggers a reconnect. Only lost connections are retried. | medium, not executed | `CameraSession.TeardownReconnectsAsWritten` | `CameraSession.TeardownNeverReconnects` |
| Frontend/src/components/CameraDetection.jsx:91-97 | `updateStats` stores `location: gpsLocation`, but it is called only from the message handler built by the mount effect. Reconnects reuse that closure. So it always reads the first render's `gpsLocation`, which is null. | Mount, receive a fix, open, then one detection frame: the stored record has location null. | Each live record carries the fix held when its frame arrived. | high, not executed | `CameraSession.FixDroppedAsWritten` | `CameraSession.FixRecordedWhenCorrected` |

=== FILE: analytics.dfy ===
/**
 * The analytics page: both histories are cut to a trailing time window,
 * tagged by source, selected or merged, and summarised as scalar counts, a
 * 24-bucket hour-of-day table, a severity histogram and the ten most recent
 * entries.
 */
module Analytics {
  import opened Wrappers
  import opened LiveHistory
  import Backend
  import opened DetectionApi
  import opened UploadHistory
  import opened StableSort

  /** The fields the page reads from an upload result or a live record; an absent field is `None`. */
  datatype Entry = Entry(
    timestamp: Option<int>, detections: Option<Detections>, boxes: Option<seq<Backend.Box>>, location: Option<GeoFix>)

  datatype Tag = Uploaded | Live

  /** An entry after the page stamps its `type`: 'upload' or 'live_camera'. */
  datatype Item = Item(tag: Tag, entry: Entry)

  /** An upload result carries boxes and a timestamp but no `detections` and no location; an error object carries neither. */
  function FromUpload(u: UploadResult): Entry
  {
    match u
    case Detected(n) => Entry(n.timestamp, None, Some(n.boxes), None)
    case Errored(_) => Entry(None, None, None, None)
  }

  function FromLive(r: LiveRecord): Entry
  {
    Entry(Some(r.timestamp), Some(r.detections), None, r.location)
  }

  const HourMs: int := 3600000

  /** The range selector: '1h', '6h' and '24h' by name, anything else a week. */
  function RangeHours(timeRange: string): (hours: nat)
    ensures hours in {1, 6, 24, 168}
    ensures timeRange == "1h" <==> hours == 1
    ensures timeRange == "6h" <==> hours == 6
    ensures timeRange == "24h" <==> hours == 24
  {
    if timeRange == "1h" then 1 else if timeRange == "6h" then 6 else if timeRange == "24h" then 24 else 168
  }

  /**
   * `new Date(item.timestamp) > cutoff`: a missing timestamp is an invalid
   * date, which compares false; there is no upper bound.
   */
  predicate InWindow(e: Entry, hours: int, now: int)
  {
    e.timestamp.Some? && e.timestamp.value > now - hours * HourMs
  }

  /** `filterByTimeRange`: the entries inside the window, in their original order. */
  function FilterByTimeRange(data: seq<Entry>, hours: int, now: int): (r: seq<Entry>)
    ensures |r| <= |data|
    ensures forall i :: 0 <= i < |r| ==> InWindow(r[i], hours, now)
    ensures forall e :: e in r <==> e in data && InWindow(e, hours, now)
  {
    if |data| == 0 then []
    else
      var last := data[|data| - 1];
      assert data == data[..|data| - 1] + [last];
      FilterByTimeRange(data[..|data| - 1], hours, now) + (if InWindow(last, hours, now) then [last] else [])
  }

  /** The filter commutes with concatenation, so it keeps the relative order of what it keeps. */
  lemma {:induction false} FilterAppend(a: seq<Entry>, b: seq<Entry>, hours: int, now: int)
    ensures FilterByTimeRange(a + b, hours, now) == FilterByTimeRange(a, hours, now) + FilterByTimeRange(b, hours, now)
  {
    if |b| == 0 {
      assert a + b == a;
    } else {
      var init := b[..|b| - 1];
      var last := b[|b| - 1];
      var tail := if InWindow(last, hours, now) then [last] else [];
      FilterAppend(a, init, hours, now);
      assert (a + b)[..|a + b| - 1] == a + init;
      assert (a + b)[|a + b| - 1] == last;
      assert FilterByTimeRange(a + b, hours, now) == FilterByTimeRange(a + init, hours, now) + tail;
      assert FilterByTimeRange(b, hours, now) == FilterByTimeRange(init, hours, now) + tail;
    }
  }

  /** Entries stamped at or after `now` are never cut, whatever the range. */
  lemma FutureEntriesKept(data: seq<Entry>, hours: nat, now: int, e: Entry)
    requires 1 <= hours
    requires e in data && e.timestamp.Some? && e.timestamp.value >= now
    ensures e in FilterByTimeRange(data, hours, now)
  {
    assert hours * HourMs >= HourMs;
  }

  function TagAll(tag: Tag, es: seq<Entry>): (r: seq<Item>)
    ensures |r| == |es| && forall i :: 0 <= i < |r| ==> r[i] == Item(tag, es[i])
  {
    if |es| == 0 then [] else TagAll(tag, es[..|es| - 1]) + [Item(tag, es[|es| - 1])]
  }

  /** The sort key; every item that survives the filter has a timestamp. */
  function Millis(it: Item): int
  {
    it.entry.timestamp.GetOr(0)
  }

  /** The 'all' view: uploads then lives, stably sorted by time. */
  function MergeByTime(u: seq<Item>, l: seq<Item>): (r: seq<Item>)
    ensures Sorted(Millis, r)
    ensures multiset(r) == multiset(u + l)
    ensures forall k :: WithKey(Millis, r, k) == WithKey(Millis, u, k) + WithKey(Millis, l, k)
  {
    var merged := Sort(Millis, u + l);
    forall k
      ensures WithKey(Millis, merged, k) == WithKey(Millis, u, k) + WithKey(Millis, l, k)
    {
      WithKeyAppend(Millis, u, l, k);
    }
    merged
  }

  /** A source's tagged, filtered entries are all in the window. */
  lemma WindowedSource(tag: Tag, es: seq<Entry>, hours: int, now: int)
    ensures var r := TagAll(tag, FilterByTimeRange(es, hours, now));
            forall i :: 0 <= i < |r| ==> InWindow(r[i].entry, hours, now)
  {
    var f := FilterByTimeRange(es, hours, now);
    var r := TagAll(tag, f);
    forall i | 0 <= i < |r|
      ensures InWindow(r[i].entry, hours, now)
    {
      assert r[i].entry == f[i];
    }
  }

  lemma InWindowConcat(a: seq<Item>, b: seq<Item>, hours: int, now: int)
    requires forall i :: 0 <= i < |a| ==> InWindow(a[i].entry, hours, now)
    requires forall i :: 0 <= i < |b| ==> InWindow(b[i].entry, hours, now)
    ensures forall i :: 0 <= i < |a + b| ==> InWindow((a + b)[i].entry, hours, now)
  {
    forall i | 0 <= i < |a + b|
      ensures InWindow((a + b)[i].entry, hours, now)
    {
      if i < |a| {
        assert (a + b)[i] == a[i];
      } else {
        assert (a + b)[i] == b[i - |a|];
      }
    }
  }

  /** A permutation of in-window items holds only in-window items. */
  lemma PermutationInWindow(r: seq<Item>, s: seq<Item>, hours: int, now: int)
    requires multiset(r) == multiset(s)
    requires forall i :: 0 <= i < |s| ==> InWindow(s[i].entry, hours, now)
    ensures forall i :: 0 <= i < |r| ==> InWindow(r[i].entry, hours, now)
  {
    forall i | 0 <= i < |r|
      ensures InWindow(r[i].entry, hours, now)
    {
      assert r[i] in multiset(s);
    }
  }

  /**
   * `getFilteredData`: 'live' and 'upload' select one source; any other value
   * merges uploads then lives and sorts them by time, stably, so equal
   * timestamps keep uploads ahead of lives.
   */
  function GetFilteredData(uploads: seq<Entry>, lives: seq<Entry>, hours: int, dataType: string, now: int): (r: seq<Item>)
    ensures dataType == "live" ==> r == TagAll(Live, FilterByTimeRange(lives, hours, now))
    ensures dataType == "upload" ==> r == TagAll(Uploaded, FilterByTimeRange(uploads, hours, now))
    ensures dataType != "live" && dataType != "upload" ==>
              r == MergeByTime(TagAll(Uploaded, FilterByTimeRange(uploads, hours, now)),
                               TagAll(Live, FilterByTimeRange(lives, hours, now)))
    ensures forall i :: 0 <= i < |r| ==> InWindow(r[i].entry, hours, now)
  {
    var u := TagAll(Uploaded, FilterByTimeRange(uploads, hours, now));
    var l := TagAll(Live, FilterByTimeRange(lives, hours, now));
    WindowedSource(Uploaded, uploads, hours, now);
    WindowedSource(Live, lives, hours, now);
    if dataType == "live" then l
    else if dataType == "upload" then u
    else
      InWindowConcat(u, l, hours, now);
      PermutationInWindow(MergeByTime(u, l), u + l, hours, now);
      MergeByTime(u, l)
  }

  /** `detections?.count || boxes?.length || 0`. */
  function ItemCount(e: Entry): (n: nat)
    ensures e.detections.Some? && e.detections.value.count > 0 ==> n == e.detections.value.count
    ensures !(e.detections.Some? && e.detections.value.count > 0) && e.boxes.Some? ==> n == |e.boxes.value|
    ensures !(e.detections.Some? && e.detections.value.count > 0) && e.boxes.None? ==> n == 0
  {
    if e.detections.Some? && e.detections.value.count != 0 then e.detections.value.count
    else if e.boxes.Some? && |e.boxes.value| != 0 then |e.boxes.value|
    else 0
  }

  /** What the count means for each source: a live record's target count, an upload's number of boxes. */
  lemma ItemCountBySource(r: LiveRecord, n: Normalized, err: string)
    ensures ItemCount(FromLive(r)) == r.detections.count
    ensures ItemCount(FromUpload(Detected(n))) == |n.boxes|
    ensures ItemCount(FromUpload(Errored(err))) == 0
  {
  }

  function SumCounts(items: seq<Item>): nat
  {
    if |items| == 0 then 0 else SumCounts(items[..|items| - 1]) + ItemCount(items[|items| - 1].entry)
  }

  function CountTag(items: seq<Item>, tag: Tag): (n: nat)
    ensures n <= |items|
  {
    if |items| == 0 then 0
    else CountTag(items[..|items| - 1], tag) + (if items[|items| - 1].tag == tag then 1 else 0)
  }

  function CountLocated(items: seq<Item>): (n: nat)
    ensures n <= |items|
  {
    if |items| == 0 then 0
    else CountLocated(items[..|items| - 1]) + (if items[|items| - 1].entry.location.Some? then 1 else 0)
  }

  /** Every item is either live or upload. */
  lemma {:induction false} TagsPartition(items: seq<Item>)
    ensures CountTag(items, Live) + CountTag(items, Uploaded) == |items|
  {
    if |items| > 0 {
      TagsPartition(items[..|items| - 1]);
    }
  }

  datatype Summary = Summary(
    totalDetections: nat, totalScans: nat, liveScans: nat, uploadScans: nat, locationsTracked: nat)

  /** The scalar statistics (the one-decimal average is left out). */
  function ComputeStats(items: seq<Item>): (st: Summary)
    ensures st.totalScans == |items|
    ensures st.liveScans + st.uploadScans == st.totalScans
    ensures st.totalDetections == SumCounts(items)
    ensures st.liveScans == CountTag(items, Live) && st.locationsTracked <= st.totalScans
    ensures st.locationsTracked == CountLocated(items)
  {
    TagsPartition(items);
    Summary(SumCounts(items), |items|, CountTag(items, Live), CountTag(items, Uploaded), CountLocated(items))
  }

  /** A single-source view counts only that source. */
  lemma {:induction false} TaggedCounts(tag: Tag, es: seq<Entry>)
    ensures CountTag(TagAll(tag, es), tag) == |es|
  {
    if |es| > 0 {
      TaggedCounts(tag, es[..|es| - 1]);
      assert TagAll(tag, es)[..|es| - 1] == TagAll(tag, es[..|es| - 1]);
    }
  }

  // ----- Hour-of-day table -----

  /** `getHours()` in a zone at a fixed offset from UTC; Dafny's division floors for a positive divisor, like the clock. */
  function HourOf(t: int, tzOffsetMs: int): (h: nat)
    ensures h < 24
  {
    ((t + tzOffsetMs) / HourMs) % 24
  }

  datatype Bucket = Bucket(hour: nat, live: nat, upload: nat, total: nat, detections: nat)

  function EmptyTable(): (t: seq<Bucket>)
    ensures |t| == 24
  {
    seq(24, h requires 0 <= h < 24 => Bucket(h, 0, 0, 0, 0))
  }

  ghost predicate WellFormedTable(t: seq<Bucket>)
  {
    |t| == 24 && forall h :: 0 <= h < 24 ==> t[h].hour == h && t[h].live + t[h].upload == t[h].total
  }

  /** Add one item to its hour's bucket; anything not live counts as upload. */
  function AddToTable(t: seq<Bucket>, it: Item, tzOffsetMs: int): seq<Bucket>
    requires |t| == 24
  {
    var h := HourOf(Millis(it), tzOffsetMs);
    var b := t[h];
    t[h := b.(total := b.total + 1, detections := b.detections + ItemCount(it.entry),
              live := if it.tag == Live then b.live + 1 else b.live,
              upload := if it.tag == Live then b.upload else b.upload + 1)]
  }

  function SumOf(t: seq<Bucket>, f: Bucket -> nat): nat
  {
    if |t| == 0 then 0 else SumOf(t[..|t| - 1], f) + f(t[|t| - 1])
  }

  lemma {:induction false} SumOfUpdate(t: seq<Bucket>, h: nat, b: Bucket, f: Bucket -> nat)
    requires h < |t|
    ensures SumOf(t[h := b], f) + f(t[h]) == SumOf(t, f) + f(b)
  {
    var n := |t| - 1;
    if h < n {
      SumOfUpdate(t[..n], h, b, f);
      assert t[h := b][..n] == t[..n][h := b];
    } else {
      assert t[h := b][..n] == t[..n];
    }
  }

  lemma {:induction false} SumOfEmpty(k: nat, f: Bucket -> nat)
    requires k <= 24
    requires forall h :: 0 <= h < 24 ==> f(EmptyTable()[h]) == 0
    ensures SumOf(EmptyTable()[..k], f) == 0
  {
    if k > 0 {
      SumOfEmpty(k - 1, f);
      assert EmptyTable()[..k][..k - 1] == EmptyTable()[..k - 1];
    }
  }

  function BucketTotal(b: Bucket): nat { b.total }
  function BucketDetections(b: Bucket): nat { b.detections }

  /** The items whose hour of day is `h`, in order. */
  function ItemsInHour(items: seq<Item>, h: nat, tzOffsetMs: int): (r: seq<Item>)
    ensures |r| <= |items|
    ensures forall i :: 0 <= i < |r| ==> HourOf(Millis(r[i]), tzOffsetMs) == h
  {
    if |items| == 0 then []
    else
      var last := items[|items| - 1];
      ItemsInHour(items[..|items| - 1], h, tzOffsetMs) + (if HourOf(Millis(last), tzOffsetMs) == h then [last] else [])
  }

  /** A bucket describes exactly the items of its hour. */
  ghost predicate BucketOf(b: Bucket, hs: seq<Item>)
  {
    && b.total == |hs|
    && b.live == CountTag(hs, Live)
    && b.upload == CountTag(hs, Uploaded)
    && b.detections == SumCounts(hs)
  }

  /** One more item in an hour adds one to its total, one to its source's count and its count to the detections. */
  lemma BucketOfAppend(b: Bucket, hs: seq<Item>, it: Item)
    requires BucketOf(b, hs)
    ensures BucketOf(b.(total := b.total + 1, detections := b.detections + ItemCount(it.entry),
                        live := if it.tag == Live then b.live + 1 else b.live,
                        upload := if it.tag == Live then b.upload else b.upload + 1), hs + [it])
  {
    assert (hs + [it])[..|hs|] == hs;
  }

  /** The items of hour `g` after one more item: the old ones, plus the new one if it falls in `g`. */
  lemma ItemsInHourAppend(items: seq<Item>, it: Item, g: nat, tzOffsetMs: int)
    ensures ItemsInHour(items + [it], g, tzOffsetMs)
            == ItemsInHour(items, g, tzOffsetMs) + (if HourOf(Millis(it), tzOffsetMs) == g then [it] else [])
  {
    assert (items + [it])[..|items|] == items;
  }

  /** Adding an item to the table changes hour `g`'s bucket exactly as the items of hour `g` change. */
  lemma AddToOneBucket(prev: seq<Bucket>, items: seq<Item>, it: Item, tzOffsetMs: int, g: nat)
    requires |prev| == 24 && g < 24
    requires BucketOf(prev[g], ItemsInHour(items, g, tzOffsetMs))
    ensures BucketOf(AddToTable(prev, it, tzOffsetMs)[g], ItemsInHour(items + [it], g, tzOffsetMs))
  {
    var t := AddToTable(prev, it, tzOffsetMs);
    var b := prev[g];
    var hs := ItemsInHour(items, g, tzOffsetMs);
    ItemsInHourAppend(items, it, g, tzOffsetMs);
    if HourOf(Millis(it), tzOffsetMs) == g {
      BucketOfAppend(b, hs, it);
      assert t[g] == b.(total := b.total + 1, detections := b.detections + ItemCount(it.entry),
                        live := if it.tag == Live then b.live + 1 else b.live,
                        upload := if it.tag == Live then b.upload else b.upload + 1);
    } else {
      assert t[g] == b;
      assert ItemsInHour(items + [it], g, tzOffsetMs) == hs;
    }
  }

  /** Adding an item to the table adds it to its own hour's bucket and to no other. */
  lemma AddToTableBuckets(prev: seq<Bucket>, items: seq<Item>, it: Item, tzOffsetMs: int)
    requires |prev| == 24
    requires forall g :: 0 <= g < 24 ==> BucketOf(prev[g], ItemsInHour(items, g, tzOffsetMs))
    ensures forall g :: 0 <= g < 24 ==> BucketOf(AddToTable(prev, it, tzOffsetMs)[g], ItemsInHour(items + [it], g, tzOffsetMs))
  {
    forall g | 0 <= g < 24
      ensures BucketOf(AddToTable(prev, it, tzOffsetMs)[g], ItemsInHour(items + [it], g, tzOffsetMs))
    {
      AddToOneBucket(prev, items, it, tzOffsetMs, g);
    }
  }

  /** What `hourlyData` promises of its table for a list of items. */
  ghost predicate HourlyTable(t: seq<Bucket>, items: seq<Item>, tzOffsetMs: int)
  {
    && WellFormedTable(t)
    && (forall h :: 0 <= h < 24 ==> BucketOf(t[h], ItemsInHour(items, h, tzOffsetMs)))
    && SumOf(t, BucketTotal) == |items|
    && SumOf(t, BucketDetections) == SumCounts(items)
  }

  lemma EmptyHourlyTable(tzOffsetMs: int)
    ensures HourlyTable(EmptyTable(), [], tzOffsetMs)
  {
    SumOfEmpty(24, BucketTotal);
    SumOfEmpty(24, BucketDetections);
    assert EmptyTable()[..24] == EmptyTable();
  }

  lemma AddToHourlyTable(prev: seq<Bucket>, items: seq<Item>, it: Item, tzOffsetMs: int)
    requires HourlyTable(prev, items, tzOffsetMs)
    ensures HourlyTable(AddToTable(prev, it, tzOffsetMs), items + [it], tzOffsetMs)
  {
    var h := HourOf(Millis(it), tzOffsetMs);
    var t := AddToTable(prev, it, tzOffsetMs);
    SumOfUpdate(prev, h, t[h], BucketTotal);
    SumOfUpdate(prev, h, t[h], BucketDetections);
    AddToTableBuckets(prev, items, it, tzOffsetMs);
    assert (items + [it])[..|items|] == items;
  }

  /**
   * `hourlyData`: exactly 24 buckets keyed 0..23, zero-filled when empty;
   * every item lands in the bucket of its hour of day, counted as live or
   * upload by its source and with its detections, so the bucket totals add up
   * to the number of items and the detection sums to the total detection count.
   */
  function HourlyData(items: seq<Item>, tzOffsetMs: int): (t: seq<Bucket>)
    ensures WellFormedTable(t)
    ensures forall h :: 0 <= h < 24 ==> BucketOf(t[h], ItemsInHour(items, h, tzOffsetMs))
    ensures SumOf(t, BucketTotal) == |items|
    ensures SumOf(t, BucketDetections) == SumCounts(items)
  {
    if |items| == 0 then
      EmptyHourlyTable(tzOffsetMs);
      EmptyTable()
    else
      var prev := HourlyData(items[..|items| - 1], tzOffsetMs);
      var it := items[|items| - 1];
      AddToHourlyTable(prev, items[..|items| - 1], it, tzOffsetMs);
      assert items[..|items| - 1] + [it] == items;
      AddToTable(prev, it, tzOffsetMs)
  }

  // ----- Severity histogram -----

  datatype Severity = Low | Medium | High | Critical

  /** The analytics buckets: 0 low, 1-2 medium, 3-5 high, 6 and up critical. */
  function SeverityOf(count: nat): (s: Severity)
    ensures s == Low <==> count == 0
    ensures s == Medium <==> 1 <= count <= 2
    ensures s == High <==> 3 <= count <= 5
    ensures s == Critical <==> 6 <= count
  {
    if count == 0 then Low else if count <= 2 then Medium else if count <= 5 then High else Critical
  }

  /** The two ladders disagree: 4 targets are CRITICAL to the backend but only high here, 2 are HIGH there but medium here. */
  lemma LaddersDiffer()
    ensures Backend.ThreatLevel(4) == "CRITICAL" && SeverityOf(4) == High
    ensures Backend.ThreatLevel(2) == "HIGH" && SeverityOf(2) == Medium
  {
  }

  datatype Histogram = Histogram(low: nat, medium: nat, high: nat, critical: nat)

  function CountSeverity(items: seq<Item>, s: Severity): nat
  {
    if |items| == 0 then 0
    else CountSeverity(items[..|items| - 1], s) + (if SeverityOf(ItemCount(items[|items| - 1].entry)) == s then 1 else 0)
  }

  /** `threatLevelData`: each bucket counts its items, and the four buckets partition the items. */
  function ThreatLevelData(items: seq<Item>): (hist: Histogram)
    ensures hist.low + hist.medium + hist.high + hist.critical == |items|
    ensures hist == Histogram(CountSeverity(items, Low), CountSeverity(items, Medium),
                              CountSeverity(items, High), CountSeverity(items, Critical))
  {
    if |items| == 0 then Histogram(0, 0, 0, 0)
    else
      var prev := ThreatLevelData(items[..|items| - 1]);
      match SeverityOf(ItemCount(items[|items| - 1].entry))
      case Low => prev.(low := prev.low + 1)
      case Medium => prev.(medium := prev.medium + 1)
      case High => prev.(high := prev.high + 1)
      case Critical => prev.(critical := prev.critical + 1)
  }

  // ----- Recent activity -----

  datatype Activity = Activity(
    id: nat, tag: Tag, timestamp: Option<int>, detections: nat, location: Option<GeoFix>, confidence: seq<real>)

  /**
   * `detections?.confidences || confidence_scores || []`; no upload entry
   * carries either field, so uploads show an empty list.
   */
  function Confidences(e: Entry): seq<real>
  {
    if e.detections.Some? then e.detections.value.confidences else []
  }

  function ActivityOf(id: nat, it: Item): Activity
  {
    Activity(id, it.tag, it.entry.timestamp, ItemCount(it.entry), it.entry.location, Confidences(it.entry))
  }

  function Min(a: nat, b: nat): nat { if a <= b then a else b }

  /** `slice(-10).reverse()`: the last ten items, newest first, numbered from 0. */
  function RecentActivity(items: seq<Item>): (r: seq<Activity>)
    ensures |r| == Min(10, |items|)
    ensures forall i :: 0 <= i < |r| ==> r[i] == ActivityOf(i, items[|items| - 1 - i])
  {
    var last := items[|items| - Min(10, |items|)..];
    seq(|last|, i requires 0 <= i < |last| => ActivityOf(i, last[|last| - 1 - i]))
  }

  /** In the merged view (sorted by time) the recent list runs from newest to oldest. */
  lemma RecentNewestFirst(items: seq<Item>)
    requires Sorted(Millis, items)
    ensures var r := RecentActivity(items);
            forall i, j :: 0 <= i < j < |r| ==> r[j].timestamp.GetOr(0) <= r[i].timestamp.GetOr(0)
  {
    var r := RecentActivity(items);
    forall i, j | 0 <= i < j < |r|
      ensures r[j].timestamp.GetOr(0) <= r[i].timestamp.GetOr(0)
    {
      assert Millis(items[|items| - 1 - j]) <= Millis(items[|items| - 1 - i]);
    }
  }

  // ----- The whole page -----

  datatype View = View(
    items: seq<Item>, stats: Summary, hourly: seq<Bucket>, threatLevels: Histogram, recent: seq<Activity>)

  ghost predicate Coherent(v: View)
  {
    && v.stats.totalScans == |v.items|
    && v.stats.liveScans + v.stats.uploadScans == v.stats.totalScans
    && WellFormedTable(v.hourly)
    && SumOf(v.hourly, BucketTotal) == v.stats.totalScans
    && SumOf(v.hourly, BucketDetections) == v.stats.totalDetections
    && v.threatLevels.low + v.threatLevels.medium + v.threatLevels.high + v.threatLevels.critical == v.stats.totalScans
    && |v.recent| == Min(10, v.stats.totalScans)
  }

  /** All figures of the page for one selected sequence; they agree with each other. */
  function Summarise(items: seq<Item>, tzOffsetMs: int): (v: View)
    ensures v.items == items
    ensures Coherent(v)
    ensures v.stats == ComputeStats(items) && v.hourly == HourlyData(items, tzOffsetMs)
    ensures v.threatLevels == ThreatLevelData(items) && v.recent == RecentActivity(items)
  {
    View(items, ComputeStats(items), HourlyData(items, tzOffsetMs), ThreatLevelData(items), RecentActivity(items))
  }

  /**
   * Everything the page derives from the two histories for one choice of
   * range and data type.
   */
  function ComputeView(
    uploads: seq<UploadResult>, lives: seq<LiveRecord>, timeRange: string, dataType: string,
    now: int, tzOffsetMs: int): (v: View)
    ensures Coherent(v)
    ensures v.items == GetFilteredData(UploadEntries(uploads), LiveEntries(lives), RangeHours(timeRange), dataType, now)
    ensures v.stats == ComputeStats(v.items) && v.hourly == HourlyData(v.items, tzOffsetMs)
    ensures v.threatLevels == ThreatLevelData(v.items) && v.recent == RecentActivity(v.items)
    ensures forall i :: 0 <= i < |v.items| ==> InWindow(v.items[i].entry, RangeHours(timeRange), now)
    ensures dataType == "live" ==> v.stats.uploadScans == 0
    ensures dataType == "upload" ==> v.stats.liveScans == 0
  {
    var hours := RangeHours(timeRange);
    var items := GetFilteredData(UploadEntries(uploads), LiveEntries(lives), hours, dataType, now);
    if dataType == "live" then
      TaggedCounts(Live, FilterByTimeRange(LiveEntries(lives), hours, now));
      Summarise(items, tzOffsetMs)
    else if dataType == "upload" then
      TaggedCounts(Uploaded, FilterByTimeRange(UploadEntries(uploads), hours, now));
      Summarise(items, tzOffsetMs)
    else
      Summarise(items, tzOffsetMs)
  }

  function UploadEntries(uploads: seq<UploadResult>): (es: seq<Entry>)
    ensures |es| == |uploads| && forall i :: 0 <= i < |es| ==> es[i] == FromUpload(uploads[i])
  {
    seq(|uploads|, i requires 0 <= i < |uploads| => FromUpload(uploads[i]))
  }

  function LiveEntries(lives: seq<LiveRecord>): (es: seq<Entry>)
    ensures |es| == |lives| && forall i :: 0 <= i < |es| ==> es[i] == FromLive(lives[i])
  {
    seq(|lives|, i requires 0 <= i < |lives| => FromLive(lives[i]))
  }

  /**
   * The history the shell records is the one the page reads: a fresh upload
   * inside the window adds exactly one scan to the upload view.
   */
  lemma NewUploadIsCounted(app: AppState, n: Normalized, lives: seq<LiveRecord>, timeRange: string,
                           now: int, tzOffsetMs: int)
    requires n.timestamp.Some? && n.timestamp.value > now - RangeHours(timeRange) * HourMs
    ensures ComputeView(HandleNewDetection(app, Some(Detected(n))).history, lives, timeRange, "upload", now, tzOffsetMs)
              .stats.totalScans
            == ComputeView(app.history, lives, timeRange, "upload", now, tzOffsetMs).stats.totalScans + 1
  {
    var hours := RangeHours(timeRange);
    var after := HandleNewDetection(app, Some(Detected(n))).history;
    assert after == app.history + [Detected(n)];
    assert UploadEntries(after) == UploadEntries(app.history) + [FromUpload(Detected(n))];
    FilterAppend(UploadEntries(app.history), [FromUpload(Detected(n))], hours, now);
    assert FilterByTimeRange([FromUpload(Detected(n))], hours, now) == [FromUpload(Detected(n))] by {
      assert [FromUpload(Detected(n))][..0] == [];
    }
  }

  // ----- Locations tracked -----

  ghost predicate Unlocated(items: seq<Item>)
  {
    forall it :: it in items ==> it.entry.location.None?
  }

  lemma {:induction false} UnlocatedCount(items: seq<Item>)
    requires Unlocated(items)
    ensures CountLocated(items) == 0
  {
    if |items| > 0 {
      var prefix := items[..|items| - 1];
      assert items == prefix + [items[|items| - 1]];
      assert Unlocated(prefix);
      UnlocatedCount(prefix);
    }
  }

  lemma UnlocatedSource(tag: Tag, es: seq<Entry>, hours: int, now: int)
    requires forall i :: 0 <= i < |es| ==> es[i].location.None?
    ensures Unlocated(TagAll(tag, FilterByTimeRange(es, hours, now)))
  {
    var f := FilterByTimeRange(es, hours, now);
    var r := TagAll(tag, f);
    forall it | it in r
      ensures it.entry.location.None?
    {
      var i :| 0 <= i < |r| && r[i] == it;
      assert f[i] in es;
    }
  }

  /**
   * Uploads never carry a location, so once the stored live records carry
   * none either, the page's "locations tracked" figure is 0 in every view.
   */
  lemma NoLocationsTracked(uploads: seq<UploadResult>, lives: seq<LiveRecord>, timeRange: string, dataType: string,
                           now: int, tzOffsetMs: int)
    requires forall i :: 0 <= i < |lives| ==> lives[i].location.None?
    ensures ComputeView(uploads, lives, timeRange, dataType, now, tzOffsetMs).stats.locationsTracked == 0
  {
    var hours := RangeHours(timeRange);
    var u := TagAll(Uploaded, FilterByTimeRange(UploadEntries(uploads), hours, now));
    var l := TagAll(Live, FilterByTimeRange(LiveEntries(lives), hours, now));
    UnlocatedSource(Uploaded, UploadEntries(uploads), hours, now);
    UnlocatedSource(Live, LiveEntries(lives), hours, now);
    var items := GetFilteredData(UploadEntries(uploads), LiveEntries(lives), hours, dataType, now);
    if dataType != "live" && dataType != "upload" {
      forall it | it in items
        ensures it.entry.location.None?
      {
        assert it in multiset(u + l);
        assert it in u + l;
      }
    }
    assert Unlocated(items);
    UnlocatedCount(items);
    assert ComputeView(uploads, lives, timeRange, dataType, now, tzOffsetMs).stats == ComputeStats(items);
  }
}

=== FILE: auth.dfy ===
/**
 * The backend's authorisation decisions: the credential lookup against the
 * fixed army-user directory, the user lookup behind a decoded bearer token,
 * the admin gate and the linear clearance hierarchy.
 */
module Auth {
  import opened Wrappers

  /** One directory entry; the source reads username, password, email and full name from the environment. */
  datatype ArmyUser = ArmyUser(
    username: string, password: string, email: string, fullName: string,
    role: string, clearanceLevel: string, unit: string)

  /** The directory is an ordered dictionary: a user type ("admin", "operator") and its data. */
  datatype Account = Account(userType: string, data: ArmyUser)

  /** What a successful login returns (the login time comes from the clock and is left out). */
  datatype AuthRecord = AuthRecord(
    username: string, email: string, fullName: string, role: string,
    clearanceLevel: string, unit: string, userType: string)

  /** What a request handler sees as the current user. */
  datatype UserView = UserView(
    username: string, email: string, fullName: string, role: string,
    clearanceLevel: string, unit: string)

  datatype HttpError = HttpError(status: nat, detail: string)

  const Unauthorized := HttpError(401, "UNAUTHORIZED ACCESS - INVALID MILITARY CREDENTIALS")
  const AdminRequired := HttpError(403, "INSUFFICIENT CLEARANCE - ADMIN ACCESS REQUIRED")
  const InvalidClearance := HttpError(403, "INVALID CLEARANCE LEVEL")

  /** The directory with every environment override left at its default. */
  const DefaultAccounts: seq<Account> := [
    Account("admin", ArmyUser("guard_admin", "Army@Guard2024!", "admin@guardx.army.mil",
                              "Guard-X Administrator", "ADMIN", "TOP_SECRET", "CYBER_WARFARE_DIVISION")),
    Account("operator", ArmyUser("field_operator", "Field@Ops2024!", "operator@guardx.army.mil",
                                 "Field Operator", "OPERATOR", "SECRET", "SURVEILLANCE_OPERATIONS"))
  ]

  /**
   * Passwords are stored and compared in plain text: no hashing, trimming or
   * case folding, so a password is accepted only when it has the stored
   * length and agrees with it character for character.
   */
  predicate VerifyPassword(plain: string, stored: string)
    ensures VerifyPassword(plain, stored) <==>
              |plain| == |stored| && forall i :: 0 <= i < |plain| ==> plain[i] == stored[i]
  {
    plain == stored
  }

  predicate Matches(a: Account, username: string, password: string)
  {
    a.data.username == username && VerifyPassword(password, a.data.password)
  }

  function RecordOf(a: Account): AuthRecord
  {
    AuthRecord(a.data.username, a.data.email, a.data.fullName, a.data.role,
               a.data.clearanceLevel, a.data.unit, a.userType)
  }

  function ViewOf(u: ArmyUser): UserView
  {
    UserView(u.username, u.email, u.fullName, u.role, u.clearanceLevel, u.unit)
  }

  /**
   * Login check: the first account, in directory order, whose username and
   * password both match; `None` (the source's `False`) when there is none.
   */
  function Authenticate(accounts: seq<Account>, username: string, password: string): (r: Option<AuthRecord>)
    ensures r.None? <==> forall i :: 0 <= i < |accounts| ==> !Matches(accounts[i], username, password)
    ensures r.Some? ==> exists i :: 0 <= i < |accounts| && Matches(accounts[i], username, password)
                                 && r.value == RecordOf(accounts[i])
                                 && forall j :: 0 <= j < i ==> !Matches(accounts[j], username, password)
  {
    if |accounts| == 0 then None
    else if Matches(accounts[0], username, password) then Some(RecordOf(accounts[0]))
    else
      var r := Authenticate(accounts[1..], username, password);
      if r.Some? then
        var i :| 0 < i + 1 <= |accounts[1..]| && Matches(accounts[1..][i], username, password)
                 && r.value == RecordOf(accounts[1..][i])
                 && forall j :: 0 <= j < i ==> !Matches(accounts[1..][j], username, password);
        assert Matches(accounts[i + 1], username, password);
        r
      else r
  }

  /** The first account whose username is `username`, as the handler sees it. */
  function FindUser(accounts: seq<Account>, username: string): (r: Option<UserView>)
    ensures r.None? <==> forall i :: 0 <= i < |accounts| ==> accounts[i].data.username != username
    ensures r.Some? ==> exists i :: 0 <= i < |accounts| && accounts[i].data.username == username
                                 && r.value == ViewOf(accounts[i].data)
                                 && forall j :: 0 <= j < i ==> accounts[j].data.username != username
  {
    if |accounts| == 0 then None
    else if accounts[0].data.username == username then Some(ViewOf(accounts[0].data))
    else
      var r := FindUser(accounts[1..], username);
      if r.Some? then
        var i :| 0 <= i < |accounts[1..]| && accounts[1..][i].data.username == username
                 && r.value == ViewOf(accounts[1..][i].data)
                 && forall j :: 0 <= j < i ==> accounts[1..][j].data.username != username;
        assert accounts[i + 1].data.username == username;
        r
      else r
  }

  /**
   * The current user behind a bearer token. Token decoding (signature and
   * expiry checks) is an oracle: `None` is a decode failure, `Some(None)` a
   * payload without `sub`, `Some(Some(u))` a payload whose subject is `u`.
   */
  function GetCurrentUser(accounts: seq<Account>, decoded: Option<Option<string>>): (r: Result<UserView, HttpError>)
    ensures r.Success? <==> decoded.Some? && decoded.value.Some?
                            && exists i :: 0 <= i < |accounts| && accounts[i].data.username == decoded.value.value
    ensures r.Success? ==> r.value.username == decoded.value.value
    ensures r.Success? ==> FindUser(accounts, decoded.value.value) == Some(r.value)
    ensures r.Failure? ==> r.error == Unauthorized
  {
    match decoded
    case None => Failure(Unauthorized)
    case Some(None) => Failure(Unauthorized)
    case Some(Some(username)) =>
      match FindUser(accounts, username)
      case None => Failure(Unauthorized)
      case Some(user) => Success(user)
  }

  /** Admin-only endpoints: role ADMIN passes, anything else is 403. */
  function RequireAdminAccess(user: UserView): (r: Result<UserView, HttpError>)
    ensures r.Success? <==> user.role == "ADMIN"
    ensures r.Success? ==> r.value == user
    ensures r.Failure? ==> r.error.status == 403
  {
    if user.role != "ADMIN" then Failure(AdminRequired) else Success(user)
  }

  /** Clearance levels from lowest to highest. */
  const Hierarchy: seq<string> := ["PUBLIC", "CONFIDENTIAL", "SECRET", "TOP_SECRET"]

  /** Position of a level in the hierarchy (Python's `list.index`). */
  function Rank(level: string): (k: nat)
    requires level in Hierarchy
    ensures k < |Hierarchy| && Hierarchy[k] == level
  {
    if level == "PUBLIC" then 0
    else if level == "CONFIDENTIAL" then 1
    else if level == "SECRET" then 2
    else 3
  }

  /**
   * Clearance gate: a level outside the hierarchy on either side is 403
   * "INVALID CLEARANCE LEVEL"; otherwise the user passes iff their rank is at
   * least the required rank.
   */
  function RequireClearanceLevel(required: string, user: UserView): (r: Result<UserView, HttpError>)
    ensures required !in Hierarchy || user.clearanceLevel !in Hierarchy ==> r == Failure(InvalidClearance)
    ensures required in Hierarchy && user.clearanceLevel in Hierarchy ==>
              (r.Success? <==> Rank(required) <= Rank(user.clearanceLevel))
    ensures r.Success? ==> r.value == user
    ensures r.Failure? ==> r.error.status == 403
  {
    if required !in Hierarchy || user.clearanceLevel !in Hierarchy then Failure(InvalidClearance)
    else if Rank(user.clearanceLevel) < Rank(required) then
      Failure(HttpError(403, "INSUFFICIENT CLEARANCE - " + required + " LEVEL REQUIRED"))
    else Success(user)
  }

  /** Passing a level means passing every level below it. */
  lemma ClearanceDownwardClosed(required: string, lower: string, user: UserView)
    requires required in Hierarchy && lower in Hierarchy
    requires Rank(lower) <= Rank(required)
    requires RequireClearanceLevel(required, user).Success?
    ensures RequireClearanceLevel(lower, user).Success?
  {
  }

  /** A TOP_SECRET user passes every valid level, and every valid level passes itself. */
  lemma ClearanceTopAndReflexive(required: string, user: UserView)
    requires required in Hierarchy
    ensures user.clearanceLevel == "TOP_SECRET" ==> RequireClearanceLevel(required, user).Success?
    ensures user.clearanceLevel == required ==> RequireClearanceLevel(required, user).Success?
  {
  }

  /** With the default directory, only the admin account reaches admin endpoints. */
  lemma DefaultDirectoryRoles()
    ensures Authenticate(DefaultAccounts, "guard_admin", "Army@Guard2024!").Some?
    ensures Authenticate(DefaultAccounts, "field_operator", "Field@Ops2024!").value.role == "OPERATOR"
    ensures RequireAdminAccess(ViewOf(DefaultAccounts[1].data)).Failure?
    ensures RequireClearanceLevel("SECRET", ViewOf(DefaultAccounts[1].data)).Success?
    ensures RequireClearanceLevel("TOP_SECRET", ViewOf(DefaultAccounts[1].data)).Failure?
  {
    assert Matches(DefaultAccounts[0], "guard_admin", "Army@Guard2024!");
    assert Matches(DefaultAccounts[1], "field_operator", "Field@Ops2024!");
    assert !Matches(DefaultAccounts[0], "field_operator", "Field@Ops2024!");
  }
}

=== FILE: backend.dfy ===
/**
 * The detection backend's request handlers: login, and the detection endpoint
 * with its threat-level ladder, status string and the response that carries
 * the same numbers in a new nested shape and an old flat shape.
 */
module Backend {
  import opened Wrappers
  import opened Text
  import opened Auth

  /** A bounding box as the detector reports it, `[x1, y1, x2, y2]`. */
  datatype Box = Box(coords: seq<real>)

  /** The detector's result dictionary. */
  datatype DetectorOutput = DetectorOutput(
    boxes: seq<Box>, count: nat, confidences: seq<real>,
    modelType: string, processingTime: real, confidenceThreshold: real)

  /** A decoded image: pixel size and colour mode. */
  datatype Image = Image(width: nat, height: nat, mode: string)

  datatype Upload = Upload(filename: string, contentType: string)

  /** The JSON bodies the detection endpoint may answer with; an absent key is `None`. */
  datatype SizeJson = SizeJson(width: int, height: int)
  datatype DetectionJson = DetectionJson(
    targetsIdentified: Option<nat>, confidenceScores: Option<seq<real>>,
    boundingBoxes: Option<seq<Box>>, threatAssessment: Option<string>,
    modelUsed: Option<string>, processingTime: Option<real>, confidenceThreshold: Option<real>)
  datatype MetadataJson = MetadataJson(filename: Option<string>, dimensions: Option<string>, format: Option<string>)
  datatype DetectResponse = DetectResponse(
    classification: Option<string>, operationId: Option<string>, operator: Option<string>,
    unit: Option<string>, clearance: Option<string>,
    detection: Option<DetectionJson>, imageMetadata: Option<MetadataJson>,
    timestamp: Option<int>, status: Option<string>,
    success: Option<bool>, boxes: Option<seq<Box>>, count: Option<nat>,
    confidenceScores: Option<seq<real>>, confidences: Option<seq<real>>,
    modelUsed: Option<string>, processingTime: Option<real>, imageSize: Option<SizeJson>)

  /** What a successful login returns; the signed token itself is reduced to its subject claim. */
  datatype UserInfo = UserInfo(username: string, email: string, fullName: string, role: string)
  datatype LoginResponse = LoginResponse(
    tokenSubject: string, tokenType: string, userInfo: UserInfo, clearanceLevel: string, unit: string)

  const InvalidCredentials := HttpError(401, "UNAUTHORIZED - INVALID MILITARY CREDENTIALS")

  /** POST /api/auth/login */
  function MilitaryLogin(accounts: seq<Account>, username: string, password: string): (r: Result<LoginResponse, HttpError>)
    ensures r.Failure? <==> Authenticate(accounts, username, password).None?
    ensures r.Failure? ==> r.error.status == 401
    ensures r.Success? ==> r.value.tokenSubject == username && r.value.userInfo.username == username
    ensures r.Success? ==> exists i :: 0 <= i < |accounts| && Matches(accounts[i], username, password)
                                     && r.value.clearanceLevel == accounts[i].data.clearanceLevel
  {
    match Authenticate(accounts, username, password)
    case None => Failure(InvalidCredentials)
    case Some(user) =>
      Success(LoginResponse(user.username, "bearer",
                            UserInfo(user.username, user.email, user.fullName, user.role),
                            user.clearanceLevel, user.unit))
  }

  /** The backend's threat ladder on the detector's count (not the analytics severity buckets). */
  function ThreatLevel(count: nat): (level: string)
    ensures level == "CRITICAL" <==> 3 < count
    ensures level == "HIGH" <==> 2 <= count <= 3
    ensures level == "MEDIUM" <==> count == 1
    ensures level == "LOW" <==> count == 0
  {
    if count > 3 then "CRITICAL" else if count > 1 then "HIGH" else if count > 0 then "MEDIUM" else "LOW"
  }

  function LevelRank(level: string): nat
  {
    if level == "LOW" then 0 else if level == "MEDIUM" then 1 else if level == "HIGH" then 2 else 3
  }

  /** More targets never lower the threat level. */
  lemma ThreatLevelMonotone(a: nat, b: nat)
    requires a <= b
    ensures LevelRank(ThreatLevel(a)) <= LevelRank(ThreatLevel(b))
  {
  }

  function MissionStatus(count: nat): (s: string)
    ensures s == "MISSION_COMPLETE" <==> count == 0
    ensures s == "THREATS_DETECTED" <==> count != 0
  {
    if count == 0 then "MISSION_COMPLETE" else "THREATS_DETECTED"
  }

  /** The `dimensions` metadata string, Python's `f"{width}x{height}"`. */
  function FormatDimensions(width: nat, height: nat): (d: string)
    ensures Split(d, 'x') == [NatToString(width), NatToString(height)]
  {
    var w := NatToString(width);
    var h := NatToString(height);
    SplitAround(w, h, 'x');
    SplitWithout(h, 'x');
    w + "x" + h
  }

  /** Starlette renders an HTTPException as "<status>: <detail>". */
  const InvalidFileTypeText := "400: INVALID FILE TYPE - IMAGE REQUIRED"

  /**
   * The body of POST /api/detect once the caller is authorised. Image decoding
   * and the detector are oracles whose failure carries the exception text.
   * Every failure, including the 400 for a non-image upload, passes through the
   * blanket handler and reaches the caller as 500 "SYSTEM FAILURE: ...".
   */
  function MilitaryThreatDetection(
    user: UserView, upload: Upload, image: Result<Image, string>,
    detector: Result<DetectorOutput, string>, nowMs: int, stamp: string): (r: Result<DetectResponse, HttpError>)
    ensures !StartsWith(upload.contentType, "image/") ==>
              r == Failure(HttpError(500, "SYSTEM FAILURE: " + InvalidFileTypeText))
    ensures r.Failure? ==> r.error.status == 500
    ensures r.Success? <==> StartsWith(upload.contentType, "image/") && image.Success? && detector.Success?
    ensures r.Success? ==> WellMirrored(r.value, image.value, detector.value)
    ensures r.Success? ==> r.value.operator == Some(user.username)
  {
    if !StartsWith(upload.contentType, "image/") then Failure(HttpError(500, "SYSTEM FAILURE: " + InvalidFileTypeText))
    else if image.Failure? then Failure(HttpError(500, "SYSTEM FAILURE: " + image.error))
    else if detector.Failure? then Failure(HttpError(500, "SYSTEM FAILURE: " + detector.error))
    else
      var img := image.value;
      var det := detector.value;
      Success(DetectResponse(
        Some("RESTRICTED"), Some("GUARD-X-" + stamp), Some(user.username), Some(user.unit), Some(user.clearanceLevel),
        Some(DetectionJson(Some(det.count), Some(det.confidences), Some(det.boxes), Some(ThreatLevel(det.count)),
                           Some(det.modelType), Some(det.processingTime), Some(det.confidenceThreshold))),
        // the image is converted to RGB before the metadata is built, so `format` is always "RGB"
        Some(MetadataJson(Some(upload.filename), Some(FormatDimensions(img.width, img.height)), Some("RGB"))),
        Some(nowMs), Some(MissionStatus(det.count)),
        Some(true), Some(det.boxes), Some(det.count), Some(det.confidences), None,
        Some(det.modelType), Some(det.processingTime), Some(SizeJson(img.width, img.height))))
  }

  /**
   * The two shapes of one successful answer agree: both counts are the
   * detector's count, both confidence lists and box lists are the detector's,
   * the dimensions string and the size object describe the same image, and the
   * threat level and status follow the count.
   */
  ghost predicate WellMirrored(resp: DetectResponse, img: Image, det: DetectorOutput)
  {
    && resp.detection.Some?
    && resp.detection.value.targetsIdentified == Some(det.count)
    && resp.count == Some(det.count)
    && resp.detection.value.confidenceScores == Some(det.confidences)
    && resp.confidenceScores == Some(det.confidences)
    && resp.detection.value.boundingBoxes == Some(det.boxes)
    && resp.boxes == Some(det.boxes)
    && resp.detection.value.threatAssessment == Some(ThreatLevel(det.count))
    && resp.status == Some(if det.count == 0 then "MISSION_COMPLETE" else "THREATS_DETECTED")
    && resp.imageMetadata.Some?
    && resp.imageMetadata.value.dimensions == Some(NatToString(img.width) + "x" + NatToString(img.height))
    && resp.imageSize == Some(SizeJson(img.width, img.height))
    && resp.success == Some(true)
  }

  /**
   * POST /api/detect as a whole: the token must name a known user (401) whose
   * clearance is at least SECRET (403) before the upload is looked at.
   */
  function DetectEndpoint(
    accounts: seq<Account>, decoded: Option<Option<string>>, upload: Upload,
    image: Result<Image, string>, detector: Result<DetectorOutput, string>,
    nowMs: int, stamp: string): (r: Result<DetectResponse, HttpError>)
    ensures GetCurrentUser(accounts, decoded).Failure? ==> r == Failure(Unauthorized)
    ensures r.Success? ==> GetCurrentUser(accounts, decoded).Success?
                           && GetCurrentUser(accounts, decoded).value.clearanceLevel in {"SECRET", "TOP_SECRET"}
    ensures GetCurrentUser(accounts, decoded).Success?
            && GetCurrentUser(accounts, decoded).value.clearanceLevel !in {"SECRET", "TOP_SECRET"} ==>
              r.Failure? && r.error.status == 403
    ensures GetCurrentUser(accounts, decoded).Success?
            && GetCurrentUser(accounts, decoded).value.clearanceLevel in {"SECRET", "TOP_SECRET"} ==>
              r == MilitaryThreatDetection(GetCurrentUser(accounts, decoded).value, upload, image, detector, nowMs, stamp)
  {
    match GetCurrentUser(accounts, decoded)
    case Failure(e) => Failure(e)
    case Success(user) =>
      match RequireClearanceLevel("SECRET", user)
      case Failure(e) => Failure(e)
      case Success(_) => MilitaryThreatDetection(user, upload, image, detector, nowMs, stamp)
  }
}

=== FILE: camera_session.dfy ===
/**
 * The live camera view as an event-driven state machine. The WebSocket,
 * timers, geolocation watch and clock become explicit events; localStorage
 * becomes the `history` sequence; sent commands are collected in `sent`.
 */
module CameraSession {
  import opened Wrappers
  import opened LiveHistory

  /** The connection indicator: 'disconnected', 'connected' or 'error'. */
  datatype Status = Disconnected | Connected | Errored

  /** The WebSocket's `readyState`. */
  datatype ReadyState = Connecting | Open | Closing | Closed

  datatype Stats = Stats(
    totalDetections: nat, currentThreats: nat, fps: nat,
    lastUpdate: Option<int>, sessionStartTime: Option<int>, totalFrames: nat)

  datatype Command = StartCamera(cameraId: int, gpsLocation: Option<GeoFix>) | StopCamera

  /** Inbound messages, by their `type` field; any other type is `Unrecognised`. */
  datatype Inbound =
    | CameraStarted
    | CameraStopped
    | DetectionFrame(frame: string, detections: Detections)
    | CameraError(message: string)
    | Unrecognised(kind: string)

  datatype Event =
    | SocketOpen                 // onopen
    | Message(msg: Inbound)      // onmessage
    | SocketClose                // onclose
    | SocketError                // onerror
    | RetryFired                 // the reconnect timer fires
    | Tick(nowMs: int)           // the clock moves
    | GpsFix(fix: GeoFix)        // the geolocation watch reports
    | PressStart                 // startCamera
    | PressStop                  // stopCamera
    | Unmount                    // the view's cleanup closes the socket

  /**
   * `frameCount` and `lastFpsUpdate` are the FPS counter's refs; `retries`
   * holds the due times of scheduled reconnect timers; `connects` counts
   * sockets opened so far.
   */
  datatype Session = Session(
    status: Status, isStreaming: bool, frame: Option<string>, detection: Option<Detections>,
    gps: Option<GeoFix>, stats: Stats, frameCount: nat, lastFpsUpdate: int, clock: int,
    socket: ReadyState, retries: seq<int>, connects: nat, sent: seq<Command>,
    history: seq<LiveRecord>, unmounted: bool)

  const RetryDelayMs: int := 3000
  const FpsWindowMs: int := 1000

  const EmptyStats := Stats(0, 0, 0, None, None, 0)

  /** Mounting the view: fresh state, the stored history, and one socket being opened. */
  function Mount(nowMs: int, stored: seq<LiveRecord>): (s: Session)
    ensures s.socket == Connecting && s.connects == 1 && s.status == Disconnected
    ensures !s.isStreaming && s.stats == EmptyStats && s.history == stored
    ensures s.frame.None? && s.detection.None? && s.gps.None? && !s.unmounted
    ensures s.frameCount == 0 && s.lastFpsUpdate == nowMs && s.clock == nowMs
    ensures s.sent == [] && s.retries == []
  {
    Session(Disconnected, false, None, None, None, EmptyStats, 0, nowMs, nowMs,
            Connecting, [], 1, [], stored, false)
  }

  /**
   * The record a frame appends to the history, stamped with the clock. The
   * message handler is the closure built by the mount effect, and every
   * reconnect reuses it, so it reads the location of the first render,
   * which is always null: a live record never carries a fix.
   */
  function RecordFor(s: Session, d: Detections): LiveRecord
  {
    LiveRecord(s.clock, None, d, s.clock)
  }

  /** `updateStats`: the counters a frame moves. */
  function UpdateStats(st: Stats, d: Detections, now: int): (r: Stats)
    ensures r.totalFrames == st.totalFrames + 1
    ensures r.totalDetections == st.totalDetections + d.count
    ensures r.currentThreats == d.count
    ensures st.sessionStartTime.Some? ==> r.sessionStartTime == st.sessionStartTime
    ensures st.sessionStartTime.None? ==> r.sessionStartTime == Some(now)
    ensures r.fps == st.fps && r.lastUpdate == Some(now)
  {
    st.(currentThreats := d.count,
        totalDetections := st.totalDetections + d.count,
        totalFrames := st.totalFrames + 1,
        lastUpdate := Some(now),
        sessionStartTime := if st.sessionStartTime.Some? then st.sessionStartTime else Some(now))
  }

  /**
   * `updateFPS`: count the frame; once at least a second has passed since the
   * last publish, publish the count as `fps` and restart counting.
   */
  function UpdateFps(s: Session): (r: Session)
    ensures s.clock - s.lastFpsUpdate >= FpsWindowMs ==>
              r.stats.fps == s.frameCount + 1 && r.frameCount == 0 && r.lastFpsUpdate == s.clock
    ensures s.clock - s.lastFpsUpdate < FpsWindowMs ==>
              r.stats.fps == s.stats.fps && r.frameCount == s.frameCount + 1 && r.lastFpsUpdate == s.lastFpsUpdate
    ensures r.(stats := s.stats, frameCount := s.frameCount, lastFpsUpdate := s.lastFpsUpdate) == s
    ensures r.stats.(fps := s.stats.fps) == s.stats
  {
    var count := s.frameCount + 1;
    if s.clock - s.lastFpsUpdate >= FpsWindowMs then
      s.(stats := s.stats.(fps := count), frameCount := 0, lastFpsUpdate := s.clock)
    else
      s.(frameCount := count)
  }

  /** The `onmessage` dispatch. */
  function OnMessage(s: Session, m: Inbound): (r: Session)
    ensures m.CameraStarted? ==>
              r.isStreaming && r.stats == s.stats.(sessionStartTime := Some(s.clock))
              && r.(isStreaming := s.isStreaming, stats := s.stats) == s
    ensures m.CameraStopped? ==>
              !r.isStreaming && r.frame.None? && r.(isStreaming := s.isStreaming, frame := s.frame) == s
    ensures m.CameraError? ==> r.status == Errored && r.(status := s.status) == s
    ensures m.Unrecognised? ==> r == s
    ensures m.DetectionFrame? ==>
              && r.frame == Some(m.frame) && r.detection == Some(m.detections)
              && r.history == Append(s.history, RecordFor(s, m.detections))
              && r.stats.(fps := s.stats.fps) == UpdateStats(s.stats, m.detections, s.clock)
              && r.stats.fps == UpdateFps(s).stats.fps
              && r.frameCount == UpdateFps(s).frameCount && r.lastFpsUpdate == UpdateFps(s).lastFpsUpdate
              && r.(frame := s.frame, detection := s.detection, history := s.history, stats := s.stats,
                    frameCount := s.frameCount, lastFpsUpdate := s.lastFpsUpdate) == s
  {
    match m
    case CameraStarted =>
      // overwrites any earlier start time, unlike a frame update
      s.(isStreaming := true, stats := s.stats.(sessionStartTime := Some(s.clock)))
    case CameraStopped => s.(isStreaming := false, frame := None)
    case DetectionFrame(frame, d) =>
      var s1 := s.(frame := Some(frame), detection := Some(d),
                   stats := UpdateStats(s.stats, d, s.clock),
                   history := Append(s.history, RecordFor(s, d)));
      UpdateFps(s1)
    case CameraError(_) => s.(status := Errored)
    case Unrecognised(_) => s
  }

  /** `onclose`: disconnected, not streaming, and one reconnect timer due in three seconds. */
  function OnClose(s: Session): (r: Session)
    ensures r.status == Disconnected && !r.isStreaming && r.socket == Closed
    ensures r.retries == s.retries + [s.clock + RetryDelayMs]
    ensures r.frame == s.frame && r.stats == s.stats && r.connects == s.connects
    ensures r.(status := s.status, isStreaming := s.isStreaming, socket := s.socket, retries := s.retries) == s
  {
    s.(status := Disconnected, isStreaming := false, socket := Closed,
       retries := s.retries + [s.clock + RetryDelayMs])
  }

  predicate RetryDue(s: Session)
  {
    |s.retries| > 0 && s.retries[0] <= s.clock
  }

  /** The reconnect timer: when due, it opens a new socket only if the current one is CLOSED. */
  function OnRetry(s: Session): (r: Session)
    ensures !RetryDue(s) ==> r == s
    ensures RetryDue(s) ==> r.retries == s.retries[1..]
    ensures RetryDue(s) && s.socket == Closed ==> r.socket == Connecting && r.connects == s.connects + 1
    ensures RetryDue(s) && s.socket != Closed ==> r.socket == s.socket && r.connects == s.connects
    ensures r.status == s.status && r.stats == s.stats && r.history == s.history
    ensures r.(retries := s.retries, socket := s.socket, connects := s.connects) == s
  {
    if !RetryDue(s) then s
    else
      var s1 := s.(retries := s.retries[1..]);
      if s.socket == Closed then s1.(socket := Connecting, connects := s.connects + 1) else s1
  }

  /** `startCamera`: sends camera 0 and the fix held now, only on an OPEN socket. */
  function PressStartCamera(s: Session): (r: Session)
    ensures s.socket == Open ==> r.sent == s.sent + [StartCamera(0, s.gps)]
    ensures s.socket != Open ==> r.sent == s.sent
    ensures r.(sent := s.sent) == s
  {
    if s.socket == Open then s.(sent := s.sent + [StartCamera(0, s.gps)]) else s
  }

  /** `stopCamera`: sends a stop command, only on an OPEN socket. */
  function PressStopCamera(s: Session): (r: Session)
    ensures s.socket == Open ==> r.sent == s.sent + [StopCamera]
    ensures s.socket != Open ==> r.sent == s.sent
    ensures r.(sent := s.sent) == s
  {
    if s.socket == Open then s.(sent := s.sent + [StopCamera]) else s
  }

  /** The cleanup closes a connecting or open socket; its close event arrives later. */
  function OnUnmount(s: Session): (r: Session)
    ensures r.unmounted
    ensures r.socket == (if s.socket == Connecting || s.socket == Open then Closing else s.socket)
    ensures r.retries == s.retries && r.connects == s.connects
    ensures r.(unmounted := s.unmounted, socket := s.socket) == s
  {
    s.(unmounted := true, socket := if s.socket == Connecting || s.socket == Open then Closing else s.socket)
  }

  /**
   * One event, as the source handles it. `onopen` and `onerror` only move
   * the indicator (and the socket state), the geolocation watch only
   * replaces the fix, and the clock only moves.
   */
  function Step(s: Session, e: Event): (r: Session)
    ensures e.SocketOpen? ==> r.socket == Open && r.status == Connected && r.(socket := s.socket, status := s.status) == s
    ensures e.SocketError? ==> r.status == Errored && r.(status := s.status) == s
    ensures e.GpsFix? ==> r.gps == Some(e.fix) && r.(gps := s.gps) == s
    ensures e.Tick? ==> r.clock == e.nowMs && r.(clock := s.clock) == s
    ensures !e.Unmount? ==> r.unmounted == s.unmounted
    ensures !(e.Message? && e.msg.DetectionFrame?) ==> r.history == s.history && r.stats.totalFrames == s.stats.totalFrames
  {
    match e
    case SocketOpen => s.(socket := Open, status := Connected)
    case Message(m) => OnMessage(s, m)
    case SocketClose => OnClose(s)
    case SocketError => s.(status := Errored)
    case RetryFired => OnRetry(s)
    case Tick(now) => s.(clock := now)
    case GpsFix(fix) => s.(gps := Some(fix))
    case PressStart => PressStartCamera(s)
    case PressStop => PressStopCamera(s)
    case Unmount => OnUnmount(s)
  }

  function Run(s: Session, events: seq<Event>): Session
  {
    if |events| == 0 then s else Step(Run(s, events[..|events| - 1]), events[|events| - 1])
  }

  /** Number of detection frames in a run. */
  function FrameCount(events: seq<Event>): nat
  {
    if |events| == 0 then 0
    else
      var e := events[|events| - 1];
      FrameCount(events[..|events| - 1]) + (if e.Message? && e.msg.DetectionFrame? then 1 else 0)
  }

  /** Sum of the frames' detection counts in a run. */
  function DetectionSum(events: seq<Event>): nat
  {
    if |events| == 0 then 0
    else
      var e := events[|events| - 1];
      DetectionSum(events[..|events| - 1]) + (if e.Message? && e.msg.DetectionFrame? then e.msg.detections.count else 0)
  }

  /**
   * Whatever else happens (reconnects, errors, start/stop), the frame counter
   * grows by the number of frames received and the detection total by the sum
   * of their counts.
   */
  lemma {:induction false} RunCountsFrames(s: Session, events: seq<Event>)
    ensures Run(s, events).stats.totalFrames == s.stats.totalFrames + FrameCount(events)
    ensures Run(s, events).stats.totalDetections == s.stats.totalDetections + DetectionSum(events)
  {
    if |events| > 0 {
      RunCountsFrames(s, events[..|events| - 1]);
    }
  }

  /** The records a run appends, each built from the state just before its frame. */
  function Recorded(s: Session, events: seq<Event>): seq<LiveRecord>
  {
    if |events| == 0 then []
    else
      var prefix := events[..|events| - 1];
      var e := events[|events| - 1];
      Recorded(s, prefix) + (if e.Message? && e.msg.DetectionFrame? then [RecordFor(Run(s, prefix), e.msg.detections)] else [])
  }

  /** Only a detection frame touches the history, by one bounded append. */
  lemma StepHistory(s: Session, e: Event)
    ensures Step(s, e).history ==
            if e.Message? && e.msg.DetectionFrame? then Append(s.history, RecordFor(s, e.msg.detections)) else s.history
  {
  }

  /** The stored history is always the newest 1000 of the old history plus everything recorded since. */
  lemma {:induction false} RunHistoryIsNewest(s: Session, events: seq<Event>)
    requires |s.history| <= Capacity
    ensures Run(s, events).history == Newest(s.history + Recorded(s, events))
  {
    if |events| > 0 {
      var prefix := events[..|events| - 1];
      var e := events[|events| - 1];
      var before := Run(s, prefix);
      RunHistoryIsNewest(s, prefix);
      assert Run(s, events) == Step(before, e);
      StepHistory(before, e);
      if e.Message? && e.msg.DetectionFrame? {
        var rec := RecordFor(before, e.msg.detections);
        assert Recorded(s, events) == Recorded(s, prefix) + [rec];
        AppendNewest(s.history + Recorded(s, prefix), rec);
        assert s.history + Recorded(s, events) == s.history + Recorded(s, prefix) + [rec];
      } else {
        assert Recorded(s, events) == Recorded(s, prefix);
      }
    }
  }

  // ----- The location of live records -----

  predicate NoFixRecorded(h: seq<LiveRecord>)
  {
    forall i :: 0 <= i < |h| ==> h[i].location.None?
  }

  /** As written, no run of events ever stores a location in the live history, fixes or not. */
  lemma {:induction false} RunNeverRecordsFix(s: Session, events: seq<Event>)
    requires NoFixRecorded(s.history)
    ensures NoFixRecorded(Run(s, events).history)
  {
    if |events| > 0 {
      var prefix := events[..|events| - 1];
      var e := events[|events| - 1];
      RunNeverRecordsFix(s, prefix);
      StepHistory(Run(s, prefix), e);
    }
  }

  /** A fix that arrives before the first frame is still not stored with it. */
  lemma FixDroppedAsWritten(t0: int, f: GeoFix, d: Detections)
    ensures Step(Step(Step(Mount(t0, []), GpsFix(f)), SocketOpen), Message(DetectionFrame("a", d))).history
            == [LiveRecord(t0, None, d, t0)]
  {
  }

  /**
   * The intended handling: the record is stamped with the fix held when the
   * frame arrives; every other part of the step is the source's.
   */
  function StepWithCurrentFix(s: Session, e: Event): (r: Session)
    ensures e.Message? && e.msg.DetectionFrame? ==>
              && r.history == Append(s.history, LiveRecord(s.clock, s.gps, e.msg.detections, s.clock))
              && r.history[|r.history| - 1].location == s.gps
    ensures !(e.Message? && e.msg.DetectionFrame?) ==> r == Step(s, e)
    ensures r.(history := []) == Step(s, e).(history := [])
  {
    if e.Message? && e.msg.DetectionFrame? then
      Step(s, e).(history := Append(s.history, LiveRecord(s.clock, s.gps, e.msg.detections, s.clock)))
    else Step(s, e)
  }

  function RunWithCurrentFix(s: Session, events: seq<Event>): Session
  {
    if |events| == 0 then s else StepWithCurrentFix(RunWithCurrentFix(s, events[..|events| - 1]), events[|events| - 1])
  }

  /** Apart from the history, a step never depends on what the history holds. */
  lemma StepIgnoresHistory(s: Session, h: seq<LiveRecord>, e: Event)
    ensures Step(s.(history := h), e).(history := []) == Step(s, e).(history := [])
  {
  }

  /** With the corrected step, a fix received before a frame is stored with it. */
  lemma FixRecordedWhenCorrected(t0: int, f: GeoFix, d: Detections)
    ensures StepWithCurrentFix(StepWithCurrentFix(StepWithCurrentFix(Mount(t0, []), GpsFix(f)), SocketOpen),
                               Message(DetectionFrame("a", d))).history
            == [LiveRecord(t0, Some(f), d, t0)]
  {
  }

  /** The correction changes nothing but the history: every other part of every run is the source's. */
  lemma {:induction false} CurrentFixAgreesElsewhere(s: Session, events: seq<Event>)
    ensures RunWithCurrentFix(s, events).(history := []) == Run(s, events).(history := [])
  {
    if |events| > 0 {
      var prefix := events[..|events| - 1];
      var e := events[|events| - 1];
      CurrentFixAgreesElsewhere(s, prefix);
      var fixed := RunWithCurrentFix(s, prefix);
      var source := Run(s, prefix);
      assert fixed == source.(history := fixed.history);
      StepIgnoresHistory(source, fixed.history, e);
    }
  }

  /**
   * Invariant: the history is within capacity, and the published rate plus
   * the frames still being counted never exceed the frames received.
   */
  ghost predicate Consistent(s: Session)
  {
    |s.history| <= Capacity && s.frameCount + s.stats.fps <= s.stats.totalFrames
  }

  /** A freshly mounted view, with a stored history within capacity, satisfies the invariant. */
  lemma MountConsistent(t: int, stored: seq<LiveRecord>)
    requires |stored| <= Capacity
    ensures Consistent(Mount(t, stored))
  {
  }

  lemma StepConsistent(s: Session, e: Event)
    requires Consistent(s)
    ensures Consistent(Step(s, e))
  {
  }

  lemma {:induction false} RunConsistent(s: Session, events: seq<Event>)
    requires Consistent(s)
    ensures Consistent(Run(s, events))
  {
    if |events| > 0 {
      RunConsistent(s, events[..|events| - 1]);
      StepConsistent(Run(s, events[..|events| - 1]), events[|events| - 1]);
    }
  }

  /** The detection badge: ALERT iff any target is in view. */
  function ThreatBadge(d: Detections): (badge: string)
    ensures badge == "ALERT" <==> d.count > 0
    ensures badge == "SECURE" <==> d.count == 0
  {
    if d.count > 0 then "ALERT" else "SECURE"
  }

  /**
   * Three frames with 0, 2 and 5 targets within the first second after
   * mounting: three frames, seven detections, five current threats, and no
   * rate published yet.
   */
  lemma ThreeFramesScenario(t0: int, d0: Detections, d2: Detections, d5: Detections)
    requires d0.count == 0 && d2.count == 2 && d5.count == 5
    ensures var s := Step(Step(Step(Step(Step(Mount(t0, []), SocketOpen), Tick(t0 + 100)),
                                        Message(DetectionFrame("a", d0))), Message(DetectionFrame("b", d2))),
                          Message(DetectionFrame("c", d5)));
            && s.stats.totalFrames == 3 && s.stats.totalDetections == 7 && s.stats.currentThreats == 5
            && s.stats.fps == 0 && s.frameCount == 3 && |s.history| == 3
  {
  }

  /** Start, acknowledgment, stop, acknowledgment: streaming again off and the frame cleared. */
  lemma StartStopScenario(t0: int, d: Detections)
    ensures var s := Step(Step(Step(Step(Step(Step(Mount(t0, []), SocketOpen), PressStart), Message(CameraStarted)),
                                        Message(DetectionFrame("f", d))), PressStop), Message(CameraStopped));
            && s.sent == [StartCamera(0, None), StopCamera]
            && !s.isStreaming && s.frame.None? && s.detection == Some(d) && s.status == Connected
  {
  }

  /** A command pressed before the socket opens is dropped, not queued. */
  lemma CommandBeforeOpenDropped(t0: int)
    ensures Step(Step(Mount(t0, []), PressStart), SocketOpen).sent == []
  {
  }

  // ----- Teardown and the reconnect timer -----

  /**
   * As written, closing the socket at unmount runs the same close handler as a
   * lost connection, so three seconds later the timer finds the socket CLOSED
   * and opens a new one.
   */
  lemma TeardownReconnectsAsWritten(t0: int)
    ensures var s := Step(Step(Step(Step(Step(Mount(t0, []), SocketOpen), Unmount), SocketClose),
                               Tick(t0 + RetryDelayMs)), RetryFired);
            s.unmounted && s.connects == 2 && s.socket == Connecting
  {
  }

  /** The intended handling: a timer that fires after teardown is spent without reconnecting. */
  function StepTeardownAware(s: Session, e: Event): (r: Session)
    ensures r.unmounted == (s.unmounted || e.Unmount?)
    ensures s.unmounted ==> r.connects == s.connects
    ensures !(s.unmounted && e.RetryFired?) ==> r == Step(s, e)
  {
    if e.RetryFired? && s.unmounted then
      (if RetryDue(s) then s.(retries := s.retries[1..]) else s)
    else Step(s, e)
  }

  function RunTeardownAware(s: Session, events: seq<Event>): Session
  {
    if |events| == 0 then s else StepTeardownAware(RunTeardownAware(s, events[..|events| - 1]), events[|events| - 1])
  }

  /** With the corrected step, nothing after teardown ever opens another socket. */
  lemma {:induction false} TeardownNeverReconnects(s: Session, events: seq<Event>)
    requires s.unmounted
    ensures RunTeardownAware(s, events).unmounted
    ensures RunTeardownAware(s, events).connects == s.connects
  {
    if |events| > 0 {
      TeardownNeverReconnects(s, events[..|events| - 1]);
    }
  }

  /** The corrected step agrees with the source on every run that does not unmount. */
  lemma {:induction false} TeardownAwareAgreesBeforeUnmount(s: Session, events: seq<Event>)
    requires !s.unmounted
    requires forall i :: 0 <= i < |events| ==> !events[i].Unmount?
    ensures RunTeardownAware(s, events) == Run(s, events)
    ensures !Run(s, events).unmounted
  {
    if |events| > 0 {
      TeardownAwareAgreesBeforeUnmount(s, events[..|events| - 1]);
    }
  }
}

=== FILE: detection_api.dfy ===
/**
 * The frontend's REST client: it flattens either response shape of the
 * detection endpoint into one record, maps failures to a message, and turns a
 * failed health probe into an "offline" report instead of an exception.
 */
module DetectionApi {
  import opened Wrappers
  import opened Text
  import opened Backend

  /** `parseInt` results; `None` is NaN. */
  datatype ImageSize = ImageSize(width: Option<int>, height: Option<int>)

  /** The flat record every caller of `detectHuman` receives. */
  datatype Normalized = Normalized(
    success: bool, boxes: seq<Box>, count: nat, confidences: seq<real>,
    timestamp: Option<int>, imageSize: Option<ImageSize>,
    modelUsed: Option<string>, processingTime: Option<real>,
    threatLevel: Option<string>, operationId: Option<string>, operator: Option<string>)

  /** An HTTP error body: FastAPI puts the message under `detail`, other servers under `message`. */
  datatype ErrorBody = ErrorBody(detail: Option<string>, message: Option<string>)

  /** What the HTTP client produced: a body, or an error with an optional code and response. */
  datatype Transport =
    | Delivered(data: DetectResponse)
    | Rejected(code: Option<string>, response: Option<ErrorBody>)

  const TimeoutMessage := "Detection timeout - processing took too long"
  const DefaultFailure := "Guard-X AI system connection failed"

  /** A string is truthy in JavaScript iff it is present and non-empty. */
  predicate Truthy(s: Option<string>) { s.Some? && s.value != "" }

  /** `dimensions.split('x')`, then `parseInt` of the first and second pieces. */
  function ParseDimensions(d: string): (size: ImageSize)
    ensures 'x' !in d ==> size == ImageSize(ParseInt(d), None)
  {
    var parts := Split(d, 'x');
    if 'x' !in d then
      SplitWithout(d, 'x');
      ImageSize(ParseInt(parts[0]), None)
    else
      ImageSize(ParseInt(parts[0]), if |parts| > 1 then ParseInt(parts[1]) else None)
  }

  /** Parsing undoes the backend's `f"{width}x{height}"` for every pair of naturals. */
  lemma DimensionsRoundTrip(width: nat, height: nat)
    ensures ParseDimensions(FormatDimensions(width, height)) == ImageSize(Some(width), Some(height))
  {
    ParseIntOfNat(width);
    ParseIntOfNat(height);
  }

  /** A dimensions string yields a size only when it is present and non-empty. */
  function SizeFromMetadata(meta: Option<MetadataJson>): (size: Option<ImageSize>)
    ensures size.Some? <==> meta.Some? && Truthy(meta.value.dimensions)
    ensures size.Some? ==> size.value == ParseDimensions(meta.value.dimensions.value)
  {
    if meta.Some? && Truthy(meta.value.dimensions) then Some(ParseDimensions(meta.value.dimensions.value)) else None
  }

  /**
   * The success branch of `detectHuman`: the nested shape when `detection` is
   * present, the flat fallback otherwise. `x || default` on a count is
   * `GetOr`, since 0 is the default anyway; on a list it is `GetOr` because an
   * empty list is truthy.
   */
  function Normalize(data: DetectResponse): (n: Normalized)
    ensures n.success
    ensures data.detection.Some? ==>
              && n.count == data.detection.value.targetsIdentified.GetOr(0)
              && n.boxes == data.detection.value.boundingBoxes.GetOr([])
              && n.confidences == data.detection.value.confidenceScores.GetOr([])
              && n.threatLevel == data.detection.value.threatAssessment
              && n.imageSize == SizeFromMetadata(data.imageMetadata)
    ensures data.detection.None? ==>
              && n.count == data.count.GetOr(0)
              && n.boxes == data.boxes.GetOr([])
              && n.confidences == (if data.confidenceScores.Some? then data.confidenceScores.value
                                   else data.confidences.GetOr([]))
              && n.threatLevel.None? && n.operationId.None? && n.operator.None?
              && (data.imageSize.None? ==> n.imageSize.None?)
              && (data.imageSize.Some? ==>
                    n.imageSize == Some(ImageSize(Some(data.imageSize.value.width), Some(data.imageSize.value.height))))
    ensures n.timestamp == data.timestamp
  {
    match data.detection
    case Some(d) =>
      Normalized(true, d.boundingBoxes.GetOr([]), d.targetsIdentified.GetOr(0), d.confidenceScores.GetOr([]),
                 data.timestamp, SizeFromMetadata(data.imageMetadata), d.modelUsed, d.processingTime,
                 d.threatAssessment, data.operationId, data.operator)
    case None =>
      // `data.success || true` is true whatever the server said
      Normalized(true, data.boxes.GetOr([]), data.count.GetOr(0),
                 match data.confidenceScores { case Some(c) => c case None => data.confidences.GetOr([]) },
                 data.timestamp,
                 match data.imageSize { case Some(s) => Some(ImageSize(Some(s.width), Some(s.height))) case None => None },
                 data.modelUsed, data.processingTime, None, None, None)
  }

  /** The message of the error `detectHuman` throws. */
  function ErrorMessage(code: Option<string>, response: Option<ErrorBody>): (m: string)
    ensures code == Some("ECONNABORTED") ==> m == TimeoutMessage
    ensures code != Some("ECONNABORTED") && response.Some? && Truthy(response.value.detail) ==>
              m == response.value.detail.value
    ensures (code != Some("ECONNABORTED") && response.Some? && !Truthy(response.value.detail)
             && Truthy(response.value.message)) ==> m == response.value.message.value
    ensures (code != Some("ECONNABORTED")
             && (response.None? || (!Truthy(response.value.detail) && !Truthy(response.value.message))))
            ==> m == DefaultFailure
  {
    if code == Some("ECONNABORTED") then TimeoutMessage
    else if response.Some? && Truthy(response.value.detail) then response.value.detail.value
    else if response.Some? && Truthy(response.value.message) then response.value.message.value
    else DefaultFailure
  }

  /** `detectHuman`: a delivered body is normalised, anything else becomes a thrown message. */
  function DetectHuman(t: Transport): (r: Result<Normalized, string>)
    ensures r.Success? <==> t.Delivered?
    ensures r.Success? ==> r.value == Normalize(t.data)
    ensures r.Failure? ==> r.error != ""
  {
    match t
    case Delivered(data) => Success(Normalize(data))
    case Rejected(code, response) => Failure(ErrorMessage(code, response))
  }

  /** A backend HTTPException reaches the client as a body whose `detail` is the exception's detail. */
  function ErrorBodyOf(e: Auth.HttpError): ErrorBody
  {
    ErrorBody(Some(e.detail), None)
  }

  /**
   * End to end: a successful detection, sent through the client, comes out
   * with the detector's count, boxes and confidences, the backend's threat
   * level and the image's size.
   */
  lemma DetectionReachesClient(
    user: Auth.UserView, upload: Upload, img: Image, det: DetectorOutput, nowMs: int, stamp: string)
    requires StartsWith(upload.contentType, "image/")
    ensures var resp := MilitaryThreatDetection(user, upload, Success(img), Success(det), nowMs, stamp);
            var n := DetectHuman(Delivered(resp.value));
            && n.Success?
            && n.value.count == det.count && n.value.boxes == det.boxes && n.value.confidences == det.confidences
            && n.value.threatLevel == Some(ThreatLevel(det.count))
            && n.value.imageSize == Some(ImageSize(Some(img.width), Some(img.height)))
            && n.value.timestamp == Some(nowMs)
  {
    DimensionsRoundTrip(img.width, img.height);
  }

  /** `detectHuman` rejects a non-image upload with the backend's 500 detail as its message. */
  lemma RejectedUploadMessage(user: Auth.UserView, upload: Upload, image: Result<Image, string>,
                              det: Result<DetectorOutput, string>, nowMs: int, stamp: string)
    requires !StartsWith(upload.contentType, "image/")
    ensures var resp := MilitaryThreatDetection(user, upload, image, det, nowMs, stamp);
            DetectHuman(Rejected(None, Some(ErrorBodyOf(resp.error)))) ==
              Failure("SYSTEM FAILURE: " + InvalidFileTypeText)
  {
  }

  /** The health report: the server's own body, or "offline" with the client error's message. */
  datatype Health = Health(status: string, error: Option<string>, modelsLoaded: Option<bool>, activeModel: Option<string>)

  datatype HealthProbe = Reachable(body: Health) | Unreachable(message: string)

  /** `checkHealth` never throws; an unreachable server reads as "offline". */
  function CheckHealth(p: HealthProbe): (h: Health)
    ensures p.Unreachable? ==> h.status == "offline" && h.error == Some(p.message)
    ensures p.Reachable? ==> h == p.body
  {
    match p
    case Reachable(body) => body
    case Unreachable(message) => Health("offline", Some(message), None, None)
  }
}

=== FILE: drone_fleet.dfy ===
/**
 * The drone dashboard's state updates: activating a drone for a mission,
 * merging the swarm detection poll into the fleet map, and the two derived
 * figures, the battery colour and the active count.
 */
module DroneFleet {
  import opened Wrappers

  /**
   * A fleet entry. Every field may be absent: activating an id that is not in
   * the map spreads `undefined` and leaves only `status`. Position and
   * altitude are only drawn on the map and are left out.
   */
  datatype Drone = Drone(
    droneId: Option<string>, battery: Option<int>, status: Option<string>,
    detection: Option<string>, confidence: Option<real>)

  datatype MissionForm = MissionForm(droneId: string, area: string)

  const EmptyForm := MissionForm("", "")

  const MissingSelection := "Please select both drone and area!"

  /** The fleet after a submit, the form, whether the modal is still open, and the alert shown. */
  datatype SubmitResult = SubmitResult(drones: map<string, Drone>, form: MissionForm, modalOpen: bool, alert: string)

  function Activated(prev: Option<Drone>): (d: Drone)
    ensures d.status == Some("active")
    ensures prev.Some? ==> d.(status := prev.value.status) == prev.value
  {
    match prev
    case Some(p) => p.(status := Some("active"))
    case None => Drone(None, None, Some("active"), None, None)
  }

  /**
   * `handleMissionSubmit`: an empty drone id or area changes nothing but the
   * alert; otherwise the chosen drone's status becomes 'active', every other
   * drone and field stays, and the form resets and the modal closes.
   */
  function HandleMissionSubmit(drones: map<string, Drone>, form: MissionForm, modalOpen: bool): (r: SubmitResult)
    ensures form.droneId == "" || form.area == "" ==>
              r.drones == drones && r.form == form && r.modalOpen == modalOpen && r.alert == MissingSelection
    ensures form.droneId != "" && form.area != "" ==>
              && r.drones.Keys == drones.Keys + {form.droneId}
              && r.drones[form.droneId].status == Some("active")
              && (form.droneId in drones ==>
                    r.drones[form.droneId].(status := drones[form.droneId].status) == drones[form.droneId])
              && (forall id :: id in drones && id != form.droneId ==> r.drones[id] == drones[id])
              && r.form == EmptyForm && !r.modalOpen
  {
    if form.droneId == "" || form.area == "" then SubmitResult(drones, form, modalOpen, MissingSelection)
    else
      var prev := if form.droneId in drones then Some(drones[form.droneId]) else None;
      SubmitResult(drones[form.droneId := Activated(prev)], EmptyForm, false,
                   "Mission activated! " + form.droneId + " deployed to " + form.area)
  }

  /** One entry of the swarm poll's answer. */
  datatype SwarmReport = SwarmReport(detection: Option<string>, confidence: Option<real>)

  /**
   * The merge inside `fetchSwarmDetections`: only ids already in the fleet are
   * updated, and only their `detection` and `confidence`.
   */
  function MergeSwarm(drones: map<string, Drone>, data: map<string, SwarmReport>): (r: map<string, Drone>)
    ensures r.Keys == drones.Keys
    ensures forall id :: id in drones && id in data ==>
              && r[id].detection == data[id].detection && r[id].confidence == data[id].confidence
              && r[id].(detection := drones[id].detection, confidence := drones[id].confidence) == drones[id]
    ensures forall id :: id in drones && id !in data ==> r[id] == drones[id]
  {
    map id | id in drones ::
      if id in data then drones[id].(detection := data[id].detection, confidence := data[id].confidence)
      else drones[id]
  }

  /** A failed poll is logged and leaves the fleet as it was. */
  function FetchSwarmDetections(drones: map<string, Drone>, fetched: Result<map<string, SwarmReport>, string>): (r: map<string, Drone>)
    ensures fetched.Failure? ==> r == drones
    ensures r.Keys == drones.Keys
  {
    match fetched
    case Success(data) => MergeSwarm(drones, data)
    case Failure(_) => drones
  }

  /** `getBatteryColor`. */
  function BatteryColor(battery: int): (colour: string)
    ensures colour == "bg-emerald-400" <==> battery > 50
    ensures colour == "bg-yellow-400" <==> 20 < battery <= 50
    ensures colour == "bg-red-400" <==> battery <= 20
  {
    if battery > 50 then "bg-emerald-400" else if battery > 20 then "bg-yellow-400" else "bg-red-400"
  }

  function ActiveIds(drones: map<string, Drone>): set<string>
  {
    set id | id in drones && drones[id].status == Some("active")
  }

  /** `activeCount`: the drones whose status is 'active'. */
  function ActiveCount(drones: map<string, Drone>): (n: nat)
    ensures n <= |drones|
  {
    assert ActiveIds(drones) <= drones.Keys;
    SubsetCard(ActiveIds(drones), drones.Keys);
    |ActiveIds(drones)|
  }

  lemma SubsetCard(a: set<string>, b: set<string>)
    requires a <= b
    ensures |a| <= |b|
  {
    assert b == a + (b - a);
  }

  /** The poll never changes how many drones are active. */
  lemma MergeKeepsActiveCount(drones: map<string, Drone>, data: map<string, SwarmReport>)
    ensures ActiveCount(MergeSwarm(drones, data)) == ActiveCount(drones)
  {
    assert ActiveIds(MergeSwarm(drones, data)) == ActiveIds(drones);
  }

  /** Activating a fleet drone that was not active raises the count by one; an active one leaves it. */
  lemma SubmitActiveCount(drones: map<string, Drone>, form: MissionForm, modalOpen: bool)
    requires form.droneId != "" && form.area != "" && form.droneId in drones
    ensures var after := HandleMissionSubmit(drones, form, modalOpen).drones;
            ActiveCount(after) == ActiveCount(drones) + (if drones[form.droneId].status == Some("active") then 0 else 1)
  {
    var after := HandleMissionSubmit(drones, form, modalOpen).drones;
    if drones[form.droneId].status == Some("active") {
      assert ActiveIds(after) == ActiveIds(drones);
    } else {
      assert ActiveIds(after) == ActiveIds(drones) + {form.droneId};
    }
  }
}

=== FILE: live_history.dfy ===
/**
 * The durable live-detection history: one record per received detection
 * frame, appended at the end and capped at the newest 1000 records.
 */
module LiveHistory {
  import opened Wrappers

  /** A position fix as the geolocation watch reports it. */
  datatype GeoFix = GeoFix(latitude: real, longitude: real, accuracy: real, capturedAt: int)

  /** The detection summary a frame carries. */
  datatype Detections = Detections(count: nat, confidences: seq<real>)

  /** The persisted shape: when, where, what was seen, and a session id derived from the clock. */
  datatype LiveRecord = LiveRecord(timestamp: int, location: Option<GeoFix>, detections: Detections, sessionId: int)

  const Capacity: nat := 1000

  /** The newest `Capacity` elements of `s`, in order. */
  function Newest<T>(s: seq<T>): seq<T>
  {
    if |s| <= Capacity then s else s[|s| - Capacity..]
  }

  /**
   * Push, then drop from the front whatever exceeds the capacity. The new
   * record is last and the records kept before it are the newest ones of the
   * old store, in their old order.
   */
  function Append<T>(store: seq<T>, rec: T): (r: seq<T>)
    ensures |r| == if |store| < Capacity then |store| + 1 else Capacity
    ensures r[|r| - 1] == rec
    ensures forall i :: 0 <= i < |r| - 1 ==> r[i] == store[|store| + 1 - |r| + i]
  {
    var all := store + [rec];
    if |all| > Capacity then all[|all| - Capacity..] else all
  }

  /** A full store loses exactly its oldest record. */
  lemma AppendToFullEvictsOldest<T>(store: seq<T>, rec: T)
    requires |store| == Capacity
    ensures Append(store, rec) == store[1..] + [rec]
  {
  }

  /** Appending to a trimmed store is trimming the untrimmed one. */
  lemma AppendNewest<T>(s: seq<T>, rec: T)
    ensures Append(Newest(s), rec) == Newest(s + [rec])
  {
    if |s| > Capacity {
      assert Newest(s) + [rec] == (s + [rec])[|s| - Capacity..];
    }
  }

  /** Several appends, oldest first. */
  function AppendAll<T>(store: seq<T>, recs: seq<T>): seq<T>
  {
    if |recs| == 0 then store else Append(AppendAll(store, recs[..|recs| - 1]), recs[|recs| - 1])
  }

  /**
   * After any run of appends the store holds exactly the newest 1000 of
   * everything it ever held, in insertion order.
   */
  lemma {:induction false} AppendAllKeepsNewest<T>(store: seq<T>, recs: seq<T>)
    requires |store| <= Capacity
    ensures AppendAll(store, recs) == Newest(store + recs)
  {
    if |recs| > 0 {
      var prefix := recs[..|recs| - 1];
      AppendAllKeepsNewest(store, prefix);
      AppendNewest(store + prefix, recs[|recs| - 1]);
      assert store + prefix + [recs[|recs| - 1]] == store + recs;
    }
  }
}

=== FILE: register.dfy ===
/**
 * The registration form's submit handler: two ordered checks on the
 * passwords, then the external `register` call, then the outcome.
 */
module Register {
  import opened Wrappers

  datatype RegisterForm = RegisterForm(
    username: string, email: string, password: string, confirmPassword: string, fullName: string)

  /** What `register` receives; the confirmation field is not sent. */
  datatype RegisterRequest = RegisterRequest(username: string, email: string, password: string, fullName: string)

  /** What `register` resolves to. */
  datatype RegisterReply = Registered | Refused(error: string)

  /** `switchScheduled`: the two-second timer back to the login view is pending. */
  datatype FormState = FormState(loading: bool, error: string, success: bool, switchScheduled: bool)

  /** The state after a submit, and the request `register` was called with, if it was called. */
  datatype SubmitOutcome = SubmitOutcome(state: FormState, call: Option<RegisterRequest>)

  const PasswordMismatch := "Passwords do not match"
  const PasswordTooShort := "Password must be at least 6 characters long"
  const MinPasswordLength: nat := 6

  /** The checks in order; the first that fails names the error. */
  function Validate(form: RegisterForm): (err: Option<string>)
    ensures form.password != form.confirmPassword ==> err == Some(PasswordMismatch)
    ensures form.password == form.confirmPassword && |form.password| < MinPasswordLength ==> err == Some(PasswordTooShort)
    ensures err.None? <==> form.password == form.confirmPassword && MinPasswordLength <= |form.password|
  {
    if form.password != form.confirmPassword then Some(PasswordMismatch)
    else if |form.password| < MinPasswordLength then Some(PasswordTooShort)
    else None
  }

  /**
   * `handleSubmit`. `reply` is what `register` would resolve to; it is
   * consulted only when the checks pass.
   */
  function HandleSubmit(prior: FormState, form: RegisterForm, reply: RegisterReply): (r: SubmitOutcome)
    ensures !r.state.loading
    ensures r.call.Some? <==> Validate(form).None?
    ensures r.call.None? ==> r.state.error == Validate(form).value && r.state.success == prior.success
    ensures r.call.Some? ==> r.call.value == RegisterRequest(form.username, form.email, form.password, form.fullName)
    ensures r.call.Some? && reply.Refused? ==> r.state.error == reply.error && r.state.success == prior.success
    ensures r.call.Some? && reply.Registered? ==> r.state.success && r.state.switchScheduled && r.state.error == ""
    ensures !(r.call.Some? && reply.Registered?) ==> r.state.switchScheduled == prior.switchScheduled
  {
    // loading is raised and the error cleared before the checks run
    var started := prior.(loading := true, error := "");
    match Validate(form)
    case Some(err) => SubmitOutcome(started.(error := err, loading := false), None)
    case None =>
      var request := RegisterRequest(form.username, form.email, form.password, form.fullName);
      match reply
      case Registered => SubmitOutcome(started.(success := true, switchScheduled := true, loading := false), Some(request))
      case Refused(e) => SubmitOutcome(started.(error := e, loading := false), Some(request))
  }

  /** A mismatch is reported even when the password is also too short. */
  lemma MismatchFirst(prior: FormState, form: RegisterForm, reply: RegisterReply)
    requires form.password != form.confirmPassword && |form.password| < MinPasswordLength
    ensures HandleSubmit(prior, form, reply).state.error == PasswordMismatch
    ensures HandleSubmit(prior, form, reply).call.None?
  {
  }
}

=== FILE: stable_sort.dfy ===
/**
 * A stable sort by an integer key, the behaviour of JavaScript's
 * `Array.prototype.sort` with a numeric comparator: ascending by key, and
 * elements with equal keys keep their relative order.
 */
module StableSort {

  ghost predicate Sorted<T>(key: T -> int, s: seq<T>)
  {
    forall i, j :: 0 <= i < j < |s| ==> key(s[i]) <= key(s[j])
  }

  /** The elements of `s` whose key is `k`, in order. Stability means this is preserved for every `k`. */
  function WithKey<T>(key: T -> int, s: seq<T>, k: int): seq<T>
  {
    if |s| == 0 then []
    else WithKey(key, s[..|s| - 1], k) + (if key(s[|s| - 1]) == k then [s[|s| - 1]] else [])
  }

  lemma {:induction false} WithKeyAppend<T>(key: T -> int, a: seq<T>, b: seq<T>, k: int)
    ensures WithKey(key, a + b, k) == WithKey(key, a, k) + WithKey(key, b, k)
  {
    if |b| == 0 {
      assert a + b == a;
    } else {
      WithKeyAppend(key, a, b[..|b| - 1], k);
      assert (a + b)[..|a + b| - 1] == a + b[..|b| - 1];
    }
  }

  lemma MembersBelow<T>(key: T -> int, r: seq<T>, t: seq<T>, x: T, bound: int)
    requires multiset(r) == multiset(t) + multiset{x}
    requires key(x) <= bound
    requires forall i :: 0 <= i < |t| ==> key(t[i]) <= bound
    ensures forall i :: 0 <= i < |r| ==> key(r[i]) <= bound
  {
    forall i | 0 <= i < |r|
      ensures key(r[i]) <= bound
    {
      assert r[i] in multiset(r);
      if r[i] != x {
        assert r[i] in multiset(t);
        var j :| 0 <= j < |t| && t[j] == r[i];
      }
    }
  }

  /** Place `x` after the trailing elements whose key exceeds its own, scanning from the end. */
  function Insert<T>(key: T -> int, t: seq<T>, x: T): (r: seq<T>)
    ensures multiset(r) == multiset(t) + multiset{x}
  {
    if |t| == 0 then [x]
    else
      var y := t[|t| - 1];
      var rest := t[..|t| - 1];
      assert t == rest + [y];
      if key(y) <= key(x) then t + [x] else Insert(key, rest, x) + [y]
  }

  lemma {:induction false} InsertSorted<T>(key: T -> int, t: seq<T>, x: T)
    requires Sorted(key, t)
    ensures Sorted(key, Insert(key, t, x))
  {
    if |t| > 0 {
      var y := t[|t| - 1];
      var rest := t[..|t| - 1];
      if key(x) < key(y) {
        InsertSorted(key, rest, x);
        MembersBelow(key, Insert(key, rest, x), rest, x, key(y));
      }
    }
  }

  lemma {:induction false} InsertStable<T>(key: T -> int, t: seq<T>, x: T, k: int)
    ensures WithKey(key, Insert(key, t, x), k) == WithKey(key, t, k) + (if key(x) == k then [x] else [])
  {
    if |t| > 0 {
      var y := t[|t| - 1];
      var rest := t[..|t| - 1];
      if key(x) < key(y) {
        InsertStable(key, rest, x, k);
        var r := Insert(key, rest, x) + [y];
        assert r[..|r| - 1] == Insert(key, rest, x);
      } else {
        assert (t + [x])[..|t|] == t;
      }
    } else {
      assert [x][..0] == [];
    }
  }

  /**
   * Insertion sort: the result is ascending by key, a permutation of the
   * input, and for every key value it lists that key's elements in input order.
   */
  function Sort<T>(key: T -> int, s: seq<T>): (r: seq<T>)
    ensures Sorted(key, r)
    ensures multiset(r) == multiset(s)
    ensures forall k :: WithKey(key, r, k) == WithKey(key, s, k)
  {
    if |s| == 0 then []
    else
      var prefix := s[..|s| - 1];
      var x := s[|s| - 1];
      assert s == prefix + [x];
      var sorted := Sort(key, prefix);
      InsertSorted(key, sorted, x);
      forall k
        ensures WithKey(key, Insert(key, sorted, x), k) == WithKey(key, s, k)
      {
        InsertStable(key, sorted, x, k);
      }
      Insert(key, sorted, x)
  }
}

=== FILE: text.dfy ===
/**
 * The handful of string primitives the system leans on: Python's `str(int)`,
 * JavaScript's `String.prototype.split` on one character, `parseInt` with the
 * default radix, and `startswith`.
 */
module Text {
  import opened Wrappers

  predicate IsDigit(c: char) { '0' <= c <= '9' }

  predicate AllDigits(s: string) { forall i :: 0 <= i < |s| ==> IsDigit(s[i]) }

  function DigitValue(c: char): (d: nat)
    requires IsDigit(c)
    ensures d < 10
  {
    c as int - '0' as int
  }

  function DigitChar(d: nat): (c: char)
    requires d < 10
    ensures IsDigit(c) && DigitValue(c) == d
  {
    (d + '0' as int) as char
  }

  /** The number a string of decimal digits denotes (most significant first). */
  function DigitsValue(s: string): nat
    requires AllDigits(s)
  {
    if |s| == 0 then 0 else DigitsValue(s[..|s| - 1]) * 10 + DigitValue(s[|s| - 1])
  }

  /** Python's `str(n)` for a non-negative integer: no sign, no leading zeros. */
  function NatToString(n: nat): (s: string)
    ensures 0 < |s| && AllDigits(s)
    ensures |s| > 1 ==> s[0] != '0'
  {
    if n < 10 then [DigitChar(n)] else NatToString(n / 10) + [DigitChar(n % 10)]
  }

  lemma {:induction false} NatToStringValue(n: nat)
    ensures DigitsValue(NatToString(n)) == n
  {
    if n >= 10 {
      var s := NatToString(n);
      assert s[..|s| - 1] == NatToString(n / 10);
      NatToStringValue(n / 10);
    }
  }

  /** Concatenation of `parts` with `sep` between neighbours. */
  function Join(parts: seq<string>, sep: char): string
  {
    if |parts| == 0 then "" else if |parts| == 1 then parts[0]
    else parts[0] + [sep] + Join(parts[1..], sep)
  }

  /**
   * JavaScript `s.split(sep)` for a one-character separator: at least one piece,
   * no piece holds the separator, and joining the pieces back gives `s`.
   */
  function Split(s: string, sep: char): (parts: seq<string>)
    ensures 1 <= |parts|
    ensures forall i :: 0 <= i < |parts| ==> sep !in parts[i]
    ensures Join(parts, sep) == s
  {
    if |s| == 0 then [""]
    else
      var rest := Split(s[1..], sep);
      if s[0] == sep then
        assert s == [sep] + s[1..];
        [""] + rest
      else
        assert s == [s[0]] + s[1..];
        [[s[0]] + rest[0]] + rest[1..]
  }

  lemma {:induction false} SplitWithout(a: string, sep: char)
    requires sep !in a
    ensures Split(a, sep) == [a]
  {
    if |a| > 0 {
      SplitWithout(a[1..], sep);
      assert [a[0]] + a[1..] == a;
    }
  }

  lemma {:induction false} SplitAround(a: string, b: string, sep: char)
    requires sep !in a
    ensures Split(a + [sep] + b, sep) == [a] + Split(b, sep)
  {
    var s := a + [sep] + b;
    if |a| == 0 {
      assert s[1..] == b;
    } else {
      assert s[1..] == a[1..] + [sep] + b;
      SplitAround(a[1..], b, sep);
      assert [a[0]] + a[1..] == a;
    }
  }

  /** Length of the longest prefix of `s` made of decimal digits. */
  function DigitRun(s: string): (k: nat)
    ensures k <= |s| && AllDigits(s[..k])
    ensures k < |s| ==> !IsDigit(s[k])
  {
    if |s| == 0 || !IsDigit(s[0]) then 0
    else
      var k := 1 + DigitRun(s[1..]);
      assert s[..k] == [s[0]] + s[1..][..k - 1];
      k
  }

  /**
   * JavaScript `parseInt(s)` with the default radix, `None` standing for NaN:
   * an optional sign, then the leading run of decimal digits; nothing after the
   * run matters. Leading whitespace and the `0x` prefix are not handled.
   */
  function ParseInt(s: string): (r: Option<int>)
    ensures r.None? <==> DigitRun(if 0 < |s| && s[0] in "+-" then s[1..] else s) == 0
  {
    var signed := 0 < |s| && s[0] in "+-";
    var body := if signed then s[1..] else s;
    var k := DigitRun(body);
    if k == 0 then None
    else
      var magnitude: int := DigitsValue(body[..k]);
      Some(if signed && s[0] == '-' then -magnitude else magnitude)
  }

  /** parseInt undoes str for every natural. */
  lemma ParseIntOfNat(n: nat)
    ensures ParseInt(NatToString(n)) == Some(n)
  {
    var s := NatToString(n);
    DigitRunAll(s);
    assert s[..|s|] == s;
    NatToStringValue(n);
  }

  lemma {:induction false} DigitRunAll(s: string)
    requires AllDigits(s)
    ensures DigitRun(s) == |s|
  {
    if |s| > 0 {
      DigitRunAll(s[1..]);
    }
  }

  predicate StartsWith(s: string, prefix: string)
  {
    |prefix| <= |s| && s[..|prefix|] == prefix
  }
}

=== FILE: upload_history.dfy ===
/**
 * The application shell's in-memory upload history: every upload result is
 * shown, and the ones without an error are appended to the history the
 * analytics page reads.
 */
module UploadHistory {
  import opened Wrappers
  import opened DetectionApi
  import Auth
  import Backend
  import Text

  /** What the upload form hands over: the normalised result or an `{ error }` object. */
  datatype UploadResult = Detected(result: Normalized) | Errored(error: string)

  datatype AppState = AppState(result: Option<UploadResult>, history: seq<UploadResult>)

  const InitialApp := AppState(None, [])

  const UploadFailure := "Guard-X surveillance system connection failed"

  /** The upload form: a thrown client error becomes an error object with a fixed message. */
  function UploadOutcome(t: Transport): (u: UploadResult)
    ensures u.Detected? <==> t.Delivered?
    ensures u.Errored? ==> u.error == UploadFailure
  {
    match DetectHuman(t)
    case Success(n) => Detected(n)
    case Failure(_) => Errored(UploadFailure)
  }

  /** `newResult && !newResult.error`: present, and its error (if any) is the empty string. */
  predicate Recordable(r: Option<UploadResult>)
  {
    r.Some? && (r.value.Detected? || r.value.error == "")
  }

  /** `handleNewDetection`. */
  function HandleNewDetection(s: AppState, newResult: Option<UploadResult>): (s': AppState)
    ensures s'.result == newResult
    ensures Recordable(newResult) ==> s'.history == s.history + [newResult.value]
    ensures !Recordable(newResult) ==> s'.history == s.history
  {
    if Recordable(newResult) then AppState(newResult, s.history + [newResult.value])
    else AppState(newResult, s.history)
  }

  function HandleAll(s: AppState, results: seq<Option<UploadResult>>): AppState
  {
    if |results| == 0 then s
    else HandleNewDetection(HandleAll(s, results[..|results| - 1]), results[|results| - 1])
  }

  function RecordableOnly(results: seq<Option<UploadResult>>): (kept: seq<UploadResult>)
    ensures |kept| <= |results|
  {
    if |results| == 0 then []
    else
      var last := results[|results| - 1];
      RecordableOnly(results[..|results| - 1]) + (if Recordable(last) then [last.value] else [])
  }

  /**
   * Over any run of results the history is the old history followed by
   * exactly the recordable results in arrival order: nothing is removed or
   * reordered, and the shown result is the last one handed over.
   */
  lemma {:induction false} HistoryIsRecordableResults(s: AppState, results: seq<Option<UploadResult>>)
    ensures HandleAll(s, results).history == s.history + RecordableOnly(results)
    ensures |results| > 0 ==> HandleAll(s, results).result == results[|results| - 1]
  {
    if |results| > 0 {
      HistoryIsRecordableResults(s, results[..|results| - 1]);
    }
  }

  /**
   * A non-image upload: whatever the backend's detail says, the form replaces
   * it with its fixed failure text, so the operator sees that text and the
   * history is unchanged.
   */
  lemma RejectedUploadShownAsFailure(s: AppState, user: Auth.UserView, upload: Backend.Upload,
                                     image: Result<Backend.Image, string>,
                                     det: Result<Backend.DetectorOutput, string>, nowMs: int, stamp: string)
    requires !Text.StartsWith(upload.contentType, "image/")
    ensures var resp := Backend.MilitaryThreatDetection(user, upload, image, det, nowMs, stamp);
            var s' := HandleNewDetection(s, Some(UploadOutcome(Rejected(None, Some(ErrorBodyOf(resp.error))))));
            s'.result == Some(Errored(UploadFailure)) && s'.history == s.history
  {
  }

  /** Results coming from the upload form are recorded exactly when the request was delivered. */
  lemma UploadRecordedIffDelivered(s: AppState, t: Transport)
    ensures |HandleNewDetection(s, Some(UploadOutcome(t))).history| == |s.history| + (if t.Delivered? then 1 else 0)
  {
  }
}

=== FILE: wrappers.dfy ===
/** Option and Result, the two shapes every module uses for "absent" and "failed". */
module Wrappers {

  /** A JavaScript `undefined`/`null` or a Python `None` is `None`. */
  datatype Option<+T> = None | Some(value: T) {

    function GetOr(default: T): T
    {
      match this
      case Some(v) => v
      case None => default
    }
  }

  /** A value or an error; the error side carries what the caller is told. */
  datatype Result<+R, +E> = Success(value: R) | Failure(error: E)
}
